=== FILE: README.md ===
# A verified model of a small web crawler's sitemap core

This project models the sitemap builder of a small Python 2 web crawler
(`models.py`) in Dafny:

- `Page`, which pulls a page's title, its static assets and its internal
  and external links out of its HTML;
- `Sitemap`, which normalises the domain it is given and crawls the site
  breadth-first from `/`, keeping a registry that holds one `Page` per path.

The registry and the crawl loop take the page constructor as a parameter
(`Registry.Builder`, a function from a path and a response text to a page
or an error). The sitemap passes `Page(domain, url, content)` for its own
domain (`Sitemaps.PageBuilder`).

The regular-expression matches of a page's HTML are inputs. They are
modelled as the list of `(tag, href)` pairs, the `src` values and the first
title match (`Pages.Scan`). What the crawl loop fetches is also an input:
a map from paths to responses (`Crawler.Site`).

The model keeps the code's behaviour on the points below, though a
reader might expect otherwise on each of them:

- The whole href is lower-cased, path included, before it is split.
  Two links that differ only in case are therefore the same link.
- `urlsplit` takes no scheme when everything after the first `:` is
  digits, as it would be for a port number. So `tel:5551234` has the path
  `tel:5551234`, is not ignored, and becomes the internal link
  `/tel:5551234`, which the crawl queues and fetches.
- A fragment-only href such as `#top` has an empty path. It becomes `/`: a
  self-link on the root page, and a link to the root from every other page
  (`Pages.FragmentOnlyHref`).
- There are no separate categories for stylesheets, form actions or "other"
  links. A same-site href that is kept becomes an asset when its tag is not
  `<a>`. A foreign href is an external link whatever its tag.
- Duplicates are removed through a Python `set`, so the order of every
  collection is unspecified. The model keeps the first occurrence and
  claims nothing about order.
- The `html` test on the `content-type` header is a case-sensitive
  substring test.
- A path the server refuses (a status other than 200, or content that is
  not HTML) is forgotten, not remembered. A later page that links to it
  queues it and fetches it again (`Crawler.RejectedForgotten`).
- Only `PageExistsError` is caught around page creation. A `ValueError`
  from `urlsplit` (an unbalanced IPv6 bracket) aborts the whole crawl. So
  does an exception raised by the GET itself, which sits outside any `try`.

Modules, in dependency order:

- `Results`: `Option` and `Result`.
- `Text`: ASCII `lower`, `strip`, `find` and substring search.
- `Unique`: duplicate removal.
- `Batch`: mapping a failing step over a sequence, where the first failure
  wins.
- `Url`: `urlsplit` and `urlunsplit` of Python 2.7, as far as the crawler
  uses them.
- `Pages`: `Page.__init__` and `Page.links`.
- `Registry`: `Sitemap.__create_page_for`.
- `Crawler`: `Sitemap.__crawl`.
- `Sitemaps`: `Sitemap.__init__`.

## Model

| member | source | states |
|---|---|---|
| Url.Split | models.py:53 | `urlsplit` loses nothing: putting the pieces back together gives the input. The scheme is present exactly when the text before the first `:` qualifies as one. The network location holds no `/`, `?`, `#` or unbalanced bracket. The path holds no `?` or `#`. Splitting fails exactly when the network location found after `//` has an unpaired bracket, so a bracket in the path or query is accepted. |
| Url.Unsplit | models.py:55-57 | `urlunsplit` with an empty query and fragment gives the text that splits into the scheme, `//` and the network location, followed by the path with a `/` put in front when it lacks one. |
| Url.UnsplitExternal | models.py:55-57 | The external link rebuilt from a foreign href is `scheme://netloc/path`. Splitting it again gives back the same scheme, network location and path, with no query and no fragment. |
| Url.InternalPath | models.py:65 | A rebuilt same-site path is `/` followed by the split path with every surrounding `/` removed. It does not start with `//` and does not end in `/` unless it is `/`. |
| Url.InternalPathOf | models.py:65 | Any text of that shape is the rebuilt path, so the shape determines the value. |
| Text.StripUnique | models.py:65 | Every text has only one strip for a given set of characters, so `strip` is determined by what it removes and what it keeps. |
| Url.InternalPathCanonical | models.py:65 | Rebuilding an already rebuilt path changes nothing. |
| Pages.DomainNetloc | models.py:32-49 | The domain's network location, taken after stripping and lower-casing, has no capitals. Finding it fails exactly when `urlsplit` fails on the stripped, lower-cased domain. It is always found when the domain has no brackets. |
| Pages.Classify | models.py:50-74 | Each href ends up in one of three places. An external link has the external shape, with no query and no fragment. Any other kept href is a same-site path other than the page's own. Internal links come only from `<a>` tags and assets only from other tags. Classification fails exactly when `urlsplit` fails on the lower-cased href. |
| Pages.ExtractPage | models.py:24-79 | A page records its own path. Its title is the trimmed match, or `No title` when there is none. Its three collections hold no duplicates, and every link has its shape. Building fails exactly when `urlsplit` fails on the domain or on one of the lower-cased hrefs, so never when none of them has a bracket. |
| Pages.BuildPage | models.py:50-79 | Once the domain's network location is known, the page records its own path and the trimmed title or `No title`. Its collections hold no duplicates and every link has its shape. Building fails exactly when `urlsplit` fails on one of the lower-cased hrefs. |
| Pages.InternalMembership | models.py:71-78 | The internal links are exactly the hrefs classified as internal links. |
| Pages.ExternalMembership | models.py:55-58 | The external links are exactly the hrefs classified as external links. |
| Pages.AssetMembership | models.py:41-77 | The assets are exactly the stripped, lower-cased `src` values plus the same-site hrefs classified as assets. |
| Pages.ExternalHrefRecorded | models.py:55-58 | A foreign href is recorded as an external link of the form `scheme://netloc/path`. That link is never an internal link. |
| Pages.InternalLinksFromAnchors | models.py:71-72 | Every internal link comes from an `<a>` tag. |
| Pages.SameSiteHrefPlacement | models.py:64-74 | A same-site href that is neither ignored nor a self-link is an internal link if it comes from `<a>`. From any other tag it is an asset. |
| Pages.UnsupportedSchemeIgnored | models.py:60-62 | An href whose split scheme is `mailto`, `tel` or `javascript`, and whose network location is not foreign, leaves the page exactly as it would be without it. |
| Pages.SelfLinkIgnored | models.py:67-69 | A same-site href that rebuilds to the page's own path leaves the page exactly as it would be without it. |
| Pages.DroppedHrefInert | models.py:58-69 | Removing any dropped href from the input gives the same page. |
| Pages.FragmentOnlyHref | models.py:64-74 | An href starting with `#` is a self-link on `/`. Everywhere else it is a link to `/`, or an asset pointing to `/` when it comes from a tag other than `<a>`. |
| Pages.LinksNoDup | models.py:108-115 | `links` is exactly the internal links followed by the external ones, and it has no duplicates. |
| Unique.Dedup | models.py:76-79 | Duplicate removal keeps exactly the elements of its input and leaves none twice. |
| Unique.DedupOfNoDup | models.py:76-79 | Removing duplicates from a sequence without any changes nothing. |
| Batch.MapAllSucceeds | models.py:50-53 | Classifying a page's hrefs succeeds exactly when every href can be split. |
| Batch.MapAllFirstFailure | models.py:50-53 | When classification fails, the error is that of the first href that cannot be split. |
| Batch.MapAllPointwise | models.py:50-53 | A successful classification holds each href's target, in input order. |
| Registry.CreatePageFor | models.py:218-233 | Registration is refused exactly when the path is taken, and the refusal comes before any page is built. Otherwise the page is built for that path: the registry grows by that page filed under the path, or the build error is passed on. |
| Registry.CreateAddsOne | models.py:230-231 | Registration adds exactly one path and leaves every earlier page untouched. |
| Registry.CreateKeepsConsistent | models.py:230-231 | Registration keeps every page filed under its own path, given a builder that gives each page the path it was built for. |
| Sitemaps.PageBuilderKeepsPath | models.py:34 | The sitemap's page builder gives each page the path it was asked for. |
| Registry.RegisterTwice | models.py:227-228 | Registering the same path a second time fails with `PageExistsError`, whatever the content. |
| Crawler.Enqueue | models.py:207-214 | The queue keeps its order and gains exactly the new page's links that are neither registered nor queued. A queue without duplicates stays so. |
| Crawler.Accepted | models.py:196-202 | A response is crawled only with status 200 and a `content-type` header containing `html`. A missing header is refused like a failed test. |
| Crawler.Step | models.py:188-216 | One turn is first-in first-out. A refused or already registered path is dropped and nothing else changes. An accepted new path is registered, and its new links are queued. The turn aborts exactly when the GET raises or the page cannot be built. |
| Crawler.StepKeepsInv | models.py:183-216 | Every turn keeps the crawl invariant. The queue has no duplicates and is disjoint from the registry. Every registered page is the one built from the server's accepted answer. Every internal link of a registered page is registered, queued, or answered and refused by the server. `/` is registered, queued, or answered and refused. Everything registered or queued can be reached from `/`. |
| Crawler.StepProgress | models.py:183-216 | Every turn either registers a new path of the site or shortens the queue, so the crawl ends. |
| Crawler.StepFailure | models.py:194-216 | An aborting turn names the path at the front of the queue and what went wrong with it. |
| Crawler.RejectedForgotten | models.py:196-202 | A refused path is neither registered nor left in the queue, so a later link to it queues it again. |
| Crawler.Crawl | models.py:183-216 | A finished crawl is closed. Every page is the one built from an accepted answer. Every internal link of a page is a page, or answered and refused by the server. The server answered `/`, and `/` is registered exactly when the server accepts it. Every page can be reached from `/`. So a crawl in which a reached GET raises never finishes. An aborted crawl names the failed GET or the failed page build, and the path it names was queued: not registered, and reached from `/` through pages built from accepted answers. |
| Sitemaps.NormaliseDomain | models.py:146-149 | The domain is accepted exactly when `urlsplit` succeeds and finds a scheme. The kept domain is that scheme, lower-cased, and the network location, joined by `://`. A domain without a scheme is refused with the missing-scheme error, and a failing split passes on its error. |
| Sitemaps.NormaliseDropsPath | models.py:146-149 | A domain given as `scheme://netloc/path` is kept as the lower-cased scheme and the network location, without the path. |
| Sitemaps.NormaliseIdempotent | models.py:146-149 | Normalising a normalised domain changes nothing. |
| Sitemaps.DomainNetlocOfNormalised | models.py:32-49 | A page of the sitemap compares its links against the normalised domain's network location, stripped of trailing whitespace and lower-cased. Building a page never fails on that domain. |
| Sitemaps.BuildSitemap | models.py:140-152 | Building a sitemap fails before crawling exactly when the domain is refused, with that error. Otherwise it keeps the normalised domain, or passes on the exception that aborted the crawl on a queued path. On success every page is `Page(domain, url, content)` for an accepted answer and is filed under its own path. Every internal link is a page, or answered and refused by the server. The server answered `/`, `/` is a page exactly when the server accepts it, and every page can be reached from `/`. |

## Left out

- HTTP: `requests.get` and `urljoin` of the domain with the path are not modelled. The response to each path is an input (`Crawler.Site`), keyed by the path. A path the map lacks answers 404. Redirects, timeouts and headers other than `content-type` are not modelled.
- `raise_for_status` is not modelled separately. Every status it rejects is also rejected by the `status == 200` test that follows it.
- The three regular expressions are not modelled. Their matches are inputs, so nothing is claimed about which tags or attributes they find.
- Python's Unicode `lower` and `strip` are not modelled. Only ASCII letters are lower-cased and only ASCII whitespace is stripped.
- `urlsplit` is modelled only for the inputs the crawler gives it. Its result cache is left out. The `_checknetloc` NFKC check of later 2.7 releases is left out.
- `urlunsplit` is modelled only for the calls the crawler makes: an empty query and fragment, and either a non-empty network location or a rebuilt path starting with `/`. Its `uses_netloc` branch cannot be reached on those calls.
- `assert` statements are assumed to run, as they do without `python -O`. The crawl loop's acceptance and queueing tests depend on them.
- `Sitemap.__str__`, the properties that only copy a field, and the command-line script `crawl.py` are not modelled. They only format or hand over data.
- `Unique.Dedup`: keeps the first occurrence of each element, where `tuple(set(...))` has an unspecified order. No contract depends on the order.
- `Crawler.Crawl`: the crawl is a method over an immutable state, not the mutable deque and dict of the source. Its result is the final registry.

=== FILE: batch.dfy ===
/** Running a fallible step over every element of a list, stopping at the
    first failure, the way a Python loop stops at the first exception. */
module Batch {
  import opened Results

  /** `f` applied to each element in order: all the results when every call
      succeeds, otherwise the error of the first call that fails. The
      element-wise facts are the lemmas below, so that proofs which do not
      need them are not burdened with them. */
  function MapAll<A, B, E>(f: A -> Result<B, E>, xs: seq<A>): (r: Result<seq<B>, E>)
    ensures r.Success? ==> |r.value| == |xs|
    decreases |xs|
  {
    if |xs| == 0 then Success([])
    else
      match f(xs[0])
      case Failure(e) => Failure(e)
      case Success(y) =>
        match MapAll(f, xs[1..])
        case Failure(e) => Failure(e)
        case Success(ys) => Success([y] + ys)
  }

  /** A successful run holds the result of every element at its position. */
  lemma {:induction false} MapAllPointwise<A, B, E>(f: A -> Result<B, E>, xs: seq<A>)
    requires MapAll(f, xs).Success?
    ensures forall i :: 0 <= i < |xs| ==> f(xs[i]) == Success(MapAll(f, xs).value[i])
    decreases |xs|
  {
    if |xs| > 0 {
      MapAllPointwise(f, xs[1..]);
      forall i | 1 <= i < |xs|
        ensures f(xs[i]) == Success(MapAll(f, xs).value[i])
      {
        assert xs[i] == xs[1..][i - 1];
      }
    }
  }

  /** A run succeeds exactly when every element's step succeeds. */
  lemma {:induction false} MapAllSucceeds<A, B, E>(f: A -> Result<B, E>, xs: seq<A>)
    ensures MapAll(f, xs).Success? <==> forall i :: 0 <= i < |xs| ==> f(xs[i]).Success?
    decreases |xs|
  {
    if |xs| > 0 {
      MapAllSucceeds(f, xs[1..]);
      assert forall i :: 1 <= i < |xs| ==> xs[i] == xs[1..][i - 1];
      if MapAll(f, xs[1..]).Failure? {
        var i :| 0 <= i < |xs| - 1 && f(xs[1..][i]).Failure?;
        assert f(xs[i + 1]).Failure?;
      }
    }
  }

  /** The first element that fails decides the error of the whole run. */
  lemma {:induction false} MapAllFirstFailure<A, B, E>(f: A -> Result<B, E>, xs: seq<A>, i: nat)
    requires i < |xs| && f(xs[i]).Failure?
    requires forall j :: 0 <= j < i ==> f(xs[j]).Success?
    ensures MapAll(f, xs) == Failure(f(xs[i]).error)
    decreases i
  {
    if i > 0 {
      assert forall j :: 0 <= j < i - 1 ==> xs[1..][j] == xs[j + 1];
      MapAllFirstFailure(f, xs[1..], i - 1);
    }
  }

  /** The outcome of a run over `a + b` given the runs over `a` and `b`: the
      first failure, otherwise both result lists joined. */
  function Then<B, E>(ra: Result<seq<B>, E>, rb: Result<seq<B>, E>): Result<seq<B>, E> {
    if ra.Failure? then ra
    else if rb.Failure? then rb
    else Success(ra.value + rb.value)
  }

  lemma {:induction false} MapAllConcat<A, B, E>(f: A -> Result<B, E>, a: seq<A>, b: seq<A>)
    ensures MapAll(f, a + b) == Then(MapAll(f, a), MapAll(f, b))
    decreases |a|
  {
    if |a| == 0 {
      assert a + b == b;
      if MapAll(f, b).Success? {
        assert [] + MapAll(f, b).value == MapAll(f, b).value;
      }
    } else {
      assert (a + b)[0] == a[0];
      assert (a + b)[1..] == a[1..] + b;
      MapAllConcat(f, a[1..], b);
      if f(a[0]).Success? && MapAll(f, a[1..]).Success? && MapAll(f, b).Success? {
        var y, ta, tb := f(a[0]).value, MapAll(f, a[1..]).value, MapAll(f, b).value;
        assert [y] + (ta + tb) == ([y] + ta) + tb;
      }
    }
  }

  lemma MapAllSingle<A, B, E>(f: A -> Result<B, E>, x: A)
    ensures f(x).Success? ==> MapAll(f, [x]) == Success([f(x).value])
    ensures f(x).Failure? ==> MapAll(f, [x]) == Failure(f(x).error)
  {
    assert [x][1..] == [];
    if f(x).Success? {
      assert [f(x).value] + [] == [f(x).value];
    }
  }

  /** `s` with its element at `i` removed. */
  function Without<T>(s: seq<T>, i: nat): seq<T>
    requires i < |s|
  {
    s[..i] + s[i + 1..]
  }

  /** Leaving out an element whose step succeeds changes neither whether the
      run fails nor its error, and otherwise only removes that element's
      result. */
  lemma MapAllWithout<A, B, E>(f: A -> Result<B, E>, xs: seq<A>, i: nat)
    requires i < |xs| && f(xs[i]).Success?
    ensures MapAll(f, xs).Failure? ==> MapAll(f, Without(xs, i)) == MapAll(f, xs)
    ensures MapAll(f, xs).Success? ==> MapAll(f, Without(xs, i)) == Success(Without(MapAll(f, xs).value, i))
  {
    SplitAround(xs, i);
    MapAllMiddle(f, xs[..i], xs[i], xs[i + 1..]);
  }

  lemma SplitAround<T>(xs: seq<T>, i: nat)
    requires i < |xs|
    ensures xs == xs[..i] + ([xs[i]] + xs[i + 1..])
    ensures Without(xs, i) == xs[..i] + xs[i + 1..]
    ensures |xs[..i]| == i
  {
  }

  lemma MapAllMiddle<A, B, E>(f: A -> Result<B, E>, a: seq<A>, x: A, c: seq<A>)
    requires f(x).Success?
    ensures var r := MapAll(f, a + ([x] + c));
            && (r.Failure? ==> MapAll(f, a + c) == r)
            && (r.Success? ==> |a| < |r.value| && MapAll(f, a + c) == Success(Without(r.value, |a|)))
  {
    MapAllSingle(f, x);
    MapAllConcat(f, [x], c);
    MapAllConcat(f, a, [x] + c);
    MapAllConcat(f, a, c);
    ThenWithout(MapAll(f, a), f(x).value, MapAll(f, c));
  }

  lemma ThenWithout<B, E>(ra: Result<seq<B>, E>, y: B, rc: Result<seq<B>, E>)
    ensures var r := Then(ra, Then(Success([y]), rc));
            && (r.Failure? ==> Then(ra, rc) == r)
            && (r.Success? ==> |ra.value| < |r.value| && Then(ra, rc) == Success(Without(r.value, |ra.value|)))
  {
    if ra.Success? && rc.Success? {
      var r := ra.value + ([y] + rc.value);
      assert r[..|ra.value|] == ra.value;
      assert r[|ra.value| + 1..] == rc.value;
    }
  }
}

=== FILE: crawl.dfy ===
/** The crawl loop of a sitemap (`Sitemap.__crawl` in models.py): a
    first-in first-out traversal from the root path that fetches each queued
    path once it reaches the front, registers the pages the server accepts,
    and queues their internal links that are neither registered nor already
    queued. */
module Crawler {
  import opened Results
  import opened Text
  import opened Unique
  import opened Url
  import opened Pages
  import opened Registry

  /** What a GET of one path gives back: a response with its status, its
      `content-type` header if any and its text, or a request that raised. */
  datatype Response =
    | Response(status: int, contentType: Option<string>, body: string)
    | ConnectionFailed

  /** The site as the crawler sees it: the response to a GET of each path.
      A path the map does not hold answers 404. */
  type Site = map<string, Response>

  function Fetch(site: Site, url: string): Response {
    if url in site then site[url] else Response(404, None, "")
  }

  /** The checks a response must pass to be crawled: status 200, and a
      `content-type` header containing `html` (a missing header raises
      inside the same `try` and is skipped like a failed check). */
  predicate Accepted(r: Response) {
    r.Response? && r.status == 200 && r.contentType.Some? && Contains(r.contentType.value, "html")
  }

  /** The server answered, and the answer fails the checks: the path is
      skipped, not an error. */
  predicate Refused(r: Response) {
    r.Response? && !Accepted(r)
  }

  /** The exceptions that escape the loop and abort the crawl. */
  datatype CrawlError =
    | FetchFailed(url: string)                // the GET itself raised
    | PageFailed(url: string, e: UrlError)    // building the page raised `ValueError`

  datatype State = State(queue: seq<string>, pages: PageMap)

  /** The loop over a new page's internal links: each link is appended to
      the queue unless it is registered or already queued. */
  function Enqueue(links: seq<string>, queue: seq<string>, pages: PageMap): (r: seq<string>)
    ensures |queue| <= |r| && r[..|queue|] == queue
    ensures forall x :: x in r <==> x in queue || (x in links && x !in pages)
    ensures NoDup(queue) ==> NoDup(r)
    decreases |links|
  {
    if |links| == 0 then queue
    else
      var x := links[0];
      assert forall y :: y in links <==> y == x || y in links[1..];
      var q := if x !in pages && x !in queue then queue + [x] else queue;
      assert NoDup(queue) ==> NoDup(q) by {
        if NoDup(queue) && q != queue {
          NoDupAppend(queue, [x]);
        }
      }
      var r := Enqueue(links[1..], q, pages);
      assert r[..|queue|] == q[..|queue|] == queue;
      r
  }

  /** The page the crawler builds for `url` from the server's answer. */
  function PageAt(build: Builder, site: Site, url: string): Result<Page, UrlError>
    requires Fetch(site, url).Response?
  {
    build(url, Fetch(site, url).body)
  }

  /** One turn of the loop: take the path at the front of the queue, fetch
      it, and either forget it, register its page and queue its new links,
      or abort. */
  function Step(build: Builder, site: Site, st: State): (r: Result<State, CrawlError>)
    requires |st.queue| > 0
    // first in, first out: the rest of the queue stays in front, in order
    ensures r.Success? ==>
              |st.queue| - 1 <= |r.value.queue| && r.value.queue[..|st.queue| - 1] == st.queue[1..]
    // a path the server does not accept, or one already registered, is
    // dropped and nothing else changes
    ensures var resp := Fetch(site, st.queue[0]);
            resp.Response? && (!Accepted(resp) || st.queue[0] in st.pages) ==>
              r == Success(State(st.queue[1..], st.pages))
    // an accepted new path is registered with its page, and exactly its
    // unregistered, unqueued internal links join the queue
    ensures var url := st.queue[0];
            r.Success? && Accepted(Fetch(site, url)) && url !in st.pages ==>
              && PageAt(build, site, url).Success?
              && r.value.pages == st.pages[url := PageAt(build, site, url).value]
              && forall x :: x in r.value.queue <==>
                   x in st.queue[1..]
                   || (x in PageAt(build, site, url).value.internalLinks && x !in r.value.pages)
    // the crawl aborts exactly when the GET raises or the page cannot be built
    ensures var url := st.queue[0];
            r.Failure? <==>
              Fetch(site, url).ConnectionFailed?
              || (Accepted(Fetch(site, url)) && url !in st.pages && PageAt(build, site, url).Failure?)
    ensures r.Failure? ==> r.error.url == st.queue[0]
    ensures r.Success? && NoDup(st.queue) ==> NoDup(r.value.queue)
  {
    var url := st.queue[0];
    var rest := st.queue[1..];
    var resp := Fetch(site, url);
    if resp.ConnectionFailed? then Failure(FetchFailed(url))
    else if !Accepted(resp) then Success(State(rest, st.pages))
    else
      match CreatePageFor(st.pages, build, url, resp.body)
      case Failure(PageExists) => Success(State(rest, st.pages))
      case Failure(InvalidUrl(e)) => Failure(PageFailed(url, e))
      case Success((pages', page)) =>
        Success(State(Enqueue(page.internalLinks, rest, pages'), pages'))
  }

  /** `u` is the root, or the internal link of a registered page that can be
      reached from the root by following at most `n - 1` more links. */
  predicate Reachable(pages: PageMap, u: string, n: nat)
    decreases n
  {
    u == "/" || (n > 0 && exists v :: v in pages && u in pages[v].internalLinks && Reachable(pages, v, n - 1))
  }

  /** `u` can be reached from the root through registered pages. */
  ghost predicate Reached(pages: PageMap, u: string) {
    exists n :: Reachable(pages, u, n)
  }

  /** `pages[u]` is the page built from what the server answered for `u`,
      which it accepted. */
  predicate Registered(build: Builder, site: Site, pages: PageMap, u: string)
    requires u in pages
  {
    Accepted(Fetch(site, u)) && PageAt(build, site, u) == Success(pages[u])
  }

  /** `u` is a path the crawl holds in its queue once it has registered
      `pages`: each page is the one built from the server's accepted answer,
      `u` is not registered, and a chain of their links leads to it from the
      root. */
  ghost predicate Pending(build: Builder, site: Site, pages: PageMap, u: string) {
    && (forall v {:trigger Registered(build, site, pages, v)} :: v in pages ==> Registered(build, site, pages, v))
    && u !in pages
    && Reached(pages, u)
  }

  /** Every internal link of a registered page is registered, still queued,
      or a path the server answered but refused. */
  predicate Closed(site: Site, pages: PageMap, queue: seq<string>) {
    forall v, l :: v in pages && l in pages[v].internalLinks ==>
      l in pages || l in queue || Refused(Fetch(site, l))
  }

  /** What holds of the crawl between two turns of the loop. */
  ghost predicate Inv(build: Builder, site: Site, st: State) {
    && NoDup(st.queue)
    && (forall u :: u in st.queue ==> u !in st.pages)
    && (forall u {:trigger Registered(build, site, st.pages, u)} ::
          u in st.pages ==> Registered(build, site, st.pages, u))
    && Closed(site, st.pages, st.queue)
    && ("/" in st.pages || "/" in st.queue || Refused(Fetch(site, "/")))
    && (forall u {:trigger Reached(st.pages, u)} :: u in st.pages ==> Reached(st.pages, u))
    && (forall u {:trigger Reached(st.pages, u)} :: u in st.queue ==> Reached(st.pages, u))
  }

  /** Adding pages keeps every path reachable. */
  lemma {:induction false} ReachableGrows(pages: PageMap, pages': PageMap, u: string, n: nat)
    requires forall v :: v in pages ==> v in pages' && pages'[v] == pages[v]
    requires Reachable(pages, u, n)
    ensures Reachable(pages', u, n)
    decreases n
  {
    if u != "/" {
      var v :| v in pages && u in pages[v].internalLinks && Reachable(pages, v, n - 1);
      ReachableGrows(pages, pages', v, n - 1);
      assert v in pages' && u in pages'[v].internalLinks;
    }
  }

  /** A turn that drops the head of the queue keeps the invariant. */
  lemma DropKeepsInv(build: Builder, site: Site, st: State)
    requires Inv(build, site, st) && |st.queue| > 0
    requires st.queue[0] in st.pages || Refused(Fetch(site, st.queue[0]))
    ensures Inv(build, site, State(st.queue[1..], st.pages))
  {
    var url, rest := st.queue[0], st.queue[1..];
    assert forall x :: x in rest ==> x in st.queue;
    assert forall x :: x in st.queue ==> x == url || x in rest by {
      assert st.queue == [url] + rest;
    }
    assert NoDup(rest) by {
      forall i, j | 0 <= i < j < |rest|
        ensures rest[i] != rest[j]
      {
        assert rest[i] == st.queue[i + 1] && rest[j] == st.queue[j + 1];
      }
    }
    assert Closed(site, st.pages, rest) by {
      forall v, l | v in st.pages && l in st.pages[v].internalLinks
        ensures l in st.pages || l in rest || Refused(Fetch(site, l))
      {
        assert l in st.pages || l in st.queue || Refused(Fetch(site, l));
      }
    }
    forall u | u in rest
      ensures Reached(st.pages, u)
    {
      assert u in st.queue;
    }
  }

  lemma ReachedGrows(pages: PageMap, pages': PageMap, u: string)
    requires forall v :: v in pages ==> v in pages' && pages'[v] == pages[v]
    requires Reached(pages, u)
    ensures Reached(pages', u)
  {
    var n: nat :| Reachable(pages, u, n);
    ReachableGrows(pages, pages', u, n);
  }

  /** The queue without its head keeps its other elements, once each. */
  lemma TailOfQueue(queue: seq<string>)
    requires |queue| > 0 && NoDup(queue)
    ensures NoDup(queue[1..]) && queue[0] !in queue[1..]
    ensures forall x :: x in queue <==> x == queue[0] || x in queue[1..]
  {
    var rest := queue[1..];
    assert queue == [queue[0]] + rest;
    forall i, j | 0 <= i < j < |rest|
      ensures rest[i] != rest[j]
    {
      assert rest[i] == queue[i + 1] && rest[j] == queue[j + 1];
    }
  }

  /** A turn that registers the head of the queue keeps the invariant. */
  lemma RegisterKeepsInv(build: Builder, site: Site, st: State, page: Page, st': State)
    requires Inv(build, site, st) && |st.queue| > 0
    requires st.queue[0] !in st.pages && Accepted(Fetch(site, st.queue[0]))
    requires PageAt(build, site, st.queue[0]) == Success(page)
    requires st'.pages == st.pages[st.queue[0] := page]
    requires forall x :: x in st'.queue <==> x in st.queue[1..] || (x in page.internalLinks && x !in st'.pages)
    requires NoDup(st'.queue)
    ensures Inv(build, site, st')
  {
    var url, rest := st.queue[0], st.queue[1..];
    TailOfQueue(st.queue);
    forall u | u in st'.queue
      ensures u !in st'.pages
    {
      if u in rest {
        assert u in st.queue;
      }
    }
    RegisterKeepsRegistered(build, site, st.pages, url, page);
    RegisterKeepsClosed(site, st, page, st');
    RegisterKeepsReached(st, page, st');
  }

  lemma RegisterKeepsRegistered(build: Builder, site: Site, pages: PageMap, url: string, page: Page)
    requires forall u {:trigger Registered(build, site, pages, u)} ::
               u in pages ==> Registered(build, site, pages, u)
    requires url !in pages && Accepted(Fetch(site, url)) && PageAt(build, site, url) == Success(page)
    ensures forall u {:trigger Registered(build, site, pages[url := page], u)} ::
              u in pages[url := page] ==> Registered(build, site, pages[url := page], u)
  {
    var pages' := pages[url := page];
    forall u | u in pages'
      ensures Registered(build, site, pages', u)
    {
      if u != url {
        assert Registered(build, site, pages, u);
      }
    }
  }

  lemma RegisterKeepsReached(st: State, page: Page, st': State)
    requires |st.queue| > 0 && st.queue[0] !in st.pages
    requires forall u {:trigger Reached(st.pages, u)} :: u in st.pages ==> Reached(st.pages, u)
    requires forall u {:trigger Reached(st.pages, u)} :: u in st.queue ==> Reached(st.pages, u)
    requires st'.pages == st.pages[st.queue[0] := page]
    requires forall x :: x in st'.queue <==> x in st.queue[1..] || (x in page.internalLinks && x !in st'.pages)
    ensures forall u {:trigger Reached(st'.pages, u)} :: u in st'.pages ==> Reached(st'.pages, u)
    ensures forall u {:trigger Reached(st'.pages, u)} :: u in st'.queue ==> Reached(st'.pages, u)
  {
    var url, pages, pages' := st.queue[0], st.pages, st'.pages;
    assert forall v :: v in pages ==> v in pages' && pages'[v] == pages[v];
    assert Reached(pages', url) by {
      assert Reached(pages, url);
      ReachedGrows(pages, pages', url);
    }
    forall u | u in pages'
      ensures Reached(pages', u)
    {
      if u != url {
        assert Reached(pages, u);
        ReachedGrows(pages, pages', u);
      }
    }
    forall x | x in st'.queue
      ensures Reached(pages', x)
    {
      if x in st.queue[1..] {
        assert x in st.queue && Reached(pages, x);
        ReachedGrows(pages, pages', x);
      } else {
        var n: nat :| Reachable(pages', url, n);
        assert url in pages' && x in pages'[url].internalLinks;
        assert Reachable(pages', x, n + 1);
      }
    }
  }

  lemma RegisterKeepsClosed(site: Site, st: State, page: Page, st': State)
    requires |st.queue| > 0 && NoDup(st.queue) && Closed(site, st.pages, st.queue)
    requires st'.pages == st.pages[st.queue[0] := page]
    requires forall x :: x in st'.queue <==> x in st.queue[1..] || (x in page.internalLinks && x !in st'.pages)
    ensures Closed(site, st'.pages, st'.queue)
  {
    var url := st.queue[0];
    TailOfQueue(st.queue);
    forall v, l | v in st'.pages && l in st'.pages[v].internalLinks
      ensures l in st'.pages || l in st'.queue || Refused(Fetch(site, l))
    {
      if v != url {
        assert l in st.pages || l in st.queue || Refused(Fetch(site, l));
      }
    }
  }

  /** Every turn that does not abort keeps the invariant. */
  lemma StepKeepsInv(build: Builder, site: Site, st: State)
    requires Inv(build, site, st) && |st.queue| > 0
    requires Step(build, site, st).Success?
    ensures Inv(build, site, Step(build, site, st).value)
  {
    var url := st.queue[0];
    var st' := Step(build, site, st).value;
    if url in st.pages || Refused(Fetch(site, url)) {
      DropKeepsInv(build, site, st);
    } else {
      RegisterKeepsInv(build, site, st, PageAt(build, site, url).value, st');
    }
  }

  /** Every turn that does not abort either registers a new path of the
      site or leaves the registry alone and shortens the queue. */
  lemma StepProgress(build: Builder, site: Site, st: State)
    requires Inv(build, site, st) && |st.queue| > 0
    requires Step(build, site, st).Success?
    ensures var st' := Step(build, site, st).value;
            || |site.Keys - st'.pages.Keys| < |site.Keys - st.pages.Keys|
            || (st'.pages == st.pages && |st'.queue| < |st.queue|)
  {
    var url := st.queue[0];
    if Accepted(Fetch(site, url)) && url !in st.pages {
      var page := PageAt(build, site, url).value;
      UpdateAddsOne(st.pages, url, page);
      ShrinkRemaining(site.Keys, st.pages.Keys, url);
    }
  }

  lemma ShrinkRemaining<K>(a: set<K>, b: set<K>, k: K)
    requires k in a && k !in b
    ensures |a - (b + {k})| < |a - b|
  {
    assert a - (b + {k}) == (a - b) - {k};
  }

  /** The exception that aborts a turn names the path at the front of the
      queue and what went wrong with it. */
  lemma StepFailure(build: Builder, site: Site, st: State)
    requires |st.queue| > 0 && Step(build, site, st).Failure?
    ensures var e := Step(build, site, st).error;
            && (e.FetchFailed? ==> Fetch(site, e.url).ConnectionFailed?)
            && (e.PageFailed? ==> Accepted(Fetch(site, e.url)) && PageAt(build, site, e.url).Failure?)
  {
  }

  /** A path the server refuses is dropped without a trace: it is neither
      registered nor left in the queue, so a later page linking to it queues
      it, and the crawl fetches it, again. */
  lemma RejectedForgotten(build: Builder, site: Site, st: State)
    requires |st.queue| > 0 && NoDup(st.queue)
    requires Fetch(site, st.queue[0]).Response? && !Accepted(Fetch(site, st.queue[0]))
    requires st.queue[0] !in st.pages
    ensures Step(build, site, st).Success?
    ensures var st' := Step(build, site, st).value;
            && st.queue[0] !in st'.pages && st.queue[0] !in st'.queue
            && Enqueue([st.queue[0]], st'.queue, st'.pages) == st'.queue + [st.queue[0]]
  {
    TailOfQueue(st.queue);
  }

  /** What the invariant says once the queue is empty. */
  lemma CrawlDone(build: Builder, site: Site, pages: PageMap)
    requires Inv(build, site, State([], pages))
    ensures forall u :: u in pages ==>
              Accepted(Fetch(site, u)) && PageAt(build, site, u) == Success(pages[u])
    ensures forall v, l :: v in pages && l in pages[v].internalLinks ==>
              l in pages || Refused(Fetch(site, l))
    ensures Accepted(Fetch(site, "/")) <==> "/" in pages
    ensures Fetch(site, "/").Response?
    ensures forall u :: u in pages ==> Reached(pages, u)
  {
    forall u | u in pages
      ensures Accepted(Fetch(site, u)) && PageAt(build, site, u) == Success(pages[u])
    {
      assert Registered(build, site, pages, u);
    }
    forall u | u in pages
      ensures Reached(pages, u)
    {
      assert u in pages;
    }
  }

  /** The whole crawl from the root path: the registry it builds, or the
      exception that aborted it. */
  method Crawl(build: Builder, site: Site) returns (r: Result<PageMap, CrawlError>)
    // every registered page is the page built from the server's accepted answer
    ensures r.Success? ==>
              forall u :: u in r.value ==>
                Accepted(Fetch(site, u)) && PageAt(build, site, u) == Success(r.value[u])
    // nothing reachable is missed: every internal link of a registered page
    // is registered unless the server does not accept it
    ensures r.Success? ==>
              forall v, l :: v in r.value && l in r.value[v].internalLinks ==>
                l in r.value || Refused(Fetch(site, l))
    ensures r.Success? ==> (Accepted(Fetch(site, "/")) <==> "/" in r.value)
    // a finished crawl had an answer for the root: a GET that raises aborts it
    ensures r.Success? ==> Fetch(site, "/").Response?
    // nothing unreachable is registered
    ensures r.Success? ==> forall u :: u in r.value ==> Reached(r.value, u)
    ensures r.Failure? && r.error.FetchFailed? ==> Fetch(site, r.error.url).ConnectionFailed?
    ensures r.Failure? && r.error.PageFailed? ==>
              Accepted(Fetch(site, r.error.url)) && PageAt(build, site, r.error.url).Failure?
    // the path that aborted the crawl was queued: reached from the root
    // through pages the crawl had registered, and not one of them
    ensures r.Failure? ==> exists pages: PageMap :: Pending(build, site, pages, r.error.url)
  {
    var st := State(["/"], map[]);
    assert Reachable(st.pages, "/", 0);
    while |st.queue| > 0
      invariant Inv(build, site, st)
      decreases |site.Keys - st.pages.Keys|, |st.queue|
    {
      var next := Step(build, site, st);
      if next.Failure? {
        StepFailure(build, site, st);
        assert Pending(build, site, st.pages, st.queue[0]) by {
          assert st.queue[0] in st.queue;
        }
        return Failure(next.error);
      }
      StepKeepsInv(build, site, st);
      StepProgress(build, site, st);
      st := next.value;
    }
    CrawlDone(build, site, st.pages);
    return Success(st.pages);
  }
}

=== FILE: pages.dfy ===
/** One crawled page: how its title, asset references and links are pulled
    out of the regular-expression matches found in its HTML, following
    `Page.__init__` in models.py. */
module Pages {
  import opened Results
  import opened Batch
  import opened Text
  import opened Unique
  import opened Url

  /** One match of the `<tag ... href="...">` pattern: the tag name and the
      attribute value, as the pattern captured them. */
  datatype HrefMatch = HrefMatch(tag: string, href: string)

  /** Everything the three patterns find in one HTML body: the first
      `<title>` content if any, every `src` value and every `(tag, href)`
      pair, in document order. */
  datatype Scan = Scan(title: Option<string>, srcs: seq<string>, hrefs: seq<HrefMatch>)

  datatype Kind = InternalLink | ExternalLink | Asset

  datatype DropReason = UnsupportedScheme | SelfLink

  /** Where one href ends up. */
  datatype Target = Keep(kind: Kind, link: string) | Drop(reason: DropReason)

  /** A page of the site. `url` is the page's path without the domain; the
      three collections hold no duplicates. */
  datatype Page = Page(
    url: string,
    title: string,
    assets: seq<string>,
    internalLinks: seq<string>,
    externalLinks: seq<string>)
  {
    /** `Page.links`: the internal links followed by the external ones. */
    function Links(): seq<string> {
      internalLinks + externalLinks
    }
  }

  const NoTitle: string := "No title"

  /** Schemes whose hrefs are never followed nor recorded. */
  const IgnoredSchemes: set<string> := {"mailto", "tel", "javascript"}

  /** The shape of every rebuilt same-site path: a leading '/', not followed
      by a second one, and no query or fragment. */
  predicate InternalShaped(x: string) {
    |x| > 0 && x[0] == '/' && !StartsWithTwoSlashes(x) && '?' !in x && '#' !in x
  }

  /** The shape of every recorded external link: `scheme:...` or `//...`. */
  predicate ExternalShaped(x: string) {
    StartsWithTwoSlashes(x) || (|x| > 0 && x[0] != '/')
  }

  /** No string has both shapes, so internal and external links never meet. */
  lemma ShapesDisjoint(x: string)
    ensures !(InternalShaped(x) && ExternalShaped(x))
  {
  }

  /** What every kept target of the page at `url` looks like: no capitals;
      an external link has the external shape and no query or fragment; any
      other kept link is a same-site path other than `url`. */
  predicate Shaped(url: string, t: Target) {
    t.Keep? ==>
      NoUpper(t.link)
      && if t.kind == ExternalLink then ExternalShaped(t.link) && '?' !in t.link && '#' !in t.link
         else InternalShaped(t.link) && t.link != url
  }

  /** The network location of the domain, as the page sees it: the domain is
      stripped and lower-cased before it is split. */
  function DomainNetloc(domain: string): (r: Result<string, UrlError>)
    ensures r.Success? ==> NoUpper(r.value)
    ensures r.Success? <==> Split(Lower(Trim(domain, Whitespace))).Success?
    ensures ('[' !in domain && ']' !in domain) ==> r.Success?
  {
    var d := Lower(Trim(domain, Whitespace));
    LowerKeepsSymbols(Trim(domain, Whitespace), '[');
    LowerKeepsSymbols(Trim(domain, Whitespace), ']');
    match Split(d)
    case Failure(e) => Failure(e)
    case Success(p) =>
      PartsNoUpper(d, p);
      Success(p.Netloc())
  }

  /** The pieces of a split string without capitals have none either. */
  lemma PartsNoUpper(s: string, p: Parts)
    requires Compose(p) == s && NoUpper(s)
    ensures p.netloc.Some? ==> NoUpper(p.netloc.value)
    ensures NoUpper(p.path)
    ensures NoUpper(p.Netloc())
  {
    var a := SchemePrefix(p.rawScheme) + NetlocPrefix(p.netloc);
    var b := Suffix('?', p.query) + Suffix('#', p.fragment);
    assert s == a + p.path + b;
    assert forall c :: c in p.path ==> c in s;
    if p.netloc.Some? {
      assert forall c :: c in p.netloc.value ==> c in NetlocPrefix(p.netloc);
      assert forall c :: c in p.netloc.value ==> c in s;
    }
  }

  /** Where one href goes, for a page at `url` on a site whose network
      location is `domainNetloc`: a foreign network location makes it an
      external link; a `mailto`, `tel` or `javascript` scheme drops it;
      otherwise its path is rebuilt as a same-site path, dropped when it is
      the page itself, and kept as an internal link from an `<a>` tag or as
      an asset from any other tag. */
  function Classify(domainNetloc: string, url: string, m: HrefMatch): (r: Result<Target, UrlError>)
    ensures r.Success? ==> Shaped(url, r.value)
    ensures r.Success? && r.value.Keep? && r.value.kind == InternalLink ==> Lower(m.tag) == "a"
    ensures r.Success? && r.value.Keep? && r.value.kind == Asset ==> Lower(m.tag) != "a"
    // classification raises exactly when `urlsplit` raises on the href
    ensures r.Success? <==> Split(Lower(m.href)).Success?
    ensures ('[' !in m.href && ']' !in m.href) ==> r.Success?
  {
    var href := Lower(m.href);
    LowerKeepsSymbols(m.href, '[');
    LowerKeepsSymbols(m.href, ']');
    match Split(href)
    case Failure(e) => Failure(e)
    case Success(p) =>
      PartsNoUpper(href, p);
      if p.Netloc() != "" && p.Netloc() != domainNetloc then
        ExternalLinkShape(p);
        Success(Keep(ExternalLink, Unsplit(p.Scheme(), p.Netloc(), p.path)))
      else if p.Scheme() in IgnoredSchemes then
        Success(Drop(UnsupportedScheme))
      else
        var link := InternalPath(p.path);
        if link == url then Success(Drop(SelfLink))
        else if Lower(m.tag) == "a" then Success(Keep(InternalLink, link))
        else Success(Keep(Asset, link))
  }

  lemma ExternalLinkShape(p: Parts)
    requires WellFormed(p) && p.Netloc() != "" && NoUpper(p.Netloc()) && NoUpper(p.path)
    ensures var x := Unsplit(p.Scheme(), p.Netloc(), p.path);
      ExternalShaped(x) && '?' !in x && '#' !in x && NoUpper(x)
  {
    UnsplitExternal(p);
    if p.rawScheme.Some? {
      AllSchemeCharsLower(p.rawScheme.value);
    }
    JoinedShape(p.Scheme(), p.Netloc(), p.path);
  }

  lemma JoinedShape(scheme: string, netloc: string, path: string)
    requires AllSchemeChars(scheme) && NoUpper(scheme)
    requires '?' !in netloc && '#' !in netloc && NoUpper(netloc)
    requires '?' !in path && '#' !in path && NoUpper(path)
    ensures var x := SchemePrefix(OptScheme(scheme)) + "//" + netloc + path;
      ExternalShaped(x) && '?' !in x && '#' !in x && NoUpper(x)
  {
    var pre := SchemePrefix(OptScheme(scheme));
    var x := pre + "//" + netloc + path;
    assert '?' !in pre && '#' !in pre && NoUpper(pre) by {
      if scheme != "" {
        assert pre == scheme + ":";
        assert forall k :: 0 <= k < |scheme| ==> IsSchemeChar(scheme[k]);
      }
    }
    if scheme != "" {
      assert x[0] == scheme[0];
      assert IsSchemeChar(scheme[0]);
    } else {
      assert x == "//" + netloc + path;
    }
  }

  /** `Classify` for one page, as a step over its matches. */
  function Classifier(domainNetloc: string, url: string): HrefMatch -> Result<Target, UrlError> {
    m => Classify(domainNetloc, url, m)
  }

  /** Every href classified in order; the first that cannot be split makes
      the whole page fail, as the `ValueError` would. */
  function ClassifyAll(domainNetloc: string, url: string, ms: seq<HrefMatch>): Result<seq<Target>, UrlError> {
    MapAll(Classifier(domainNetloc, url), ms)
  }

  /** The links of one kind, in order. */
  function Collect(ts: seq<Target>, k: Kind): (r: seq<string>)
    ensures forall x :: x in r <==> Keep(k, x) in ts
    decreases |ts|
  {
    if |ts| == 0 then []
    else
      var head := if ts[0].Keep? && ts[0].kind == k then [ts[0].link] else [];
      assert ts == [ts[0]] + ts[1..];
      head + Collect(ts[1..], k)
  }

  lemma {:induction false} CollectConcat(a: seq<Target>, b: seq<Target>, k: Kind)
    ensures Collect(a + b, k) == Collect(a, k) + Collect(b, k)
    decreases |a|
  {
    if |a| > 0 {
      assert (a + b)[1..] == a[1..] + b;
      CollectConcat(a[1..], b, k);
    } else {
      assert a + b == b;
    }
  }

  function SrcAssets(srcs: seq<string>): (r: seq<string>)
    ensures |r| == |srcs|
    ensures forall i :: 0 <= i < |srcs| ==> r[i] == Lower(Trim(srcs[i], Whitespace))
  {
    seq(|srcs|, i requires 0 <= i < |srcs| => Lower(Trim(srcs[i], Whitespace)))
  }

  /** Properties every extracted page has. */
  predicate WellFormedPage(p: Page) {
    && NoDup(p.assets) && NoDup(p.internalLinks) && NoDup(p.externalLinks)
    && (forall x :: x in p.internalLinks ==> InternalShaped(x) && x != p.url && NoUpper(x))
    && (forall x :: x in p.externalLinks ==> ExternalShaped(x) && '?' !in x && '#' !in x && NoUpper(x))
    && (forall x :: x in p.assets ==> NoUpper(x))
  }

  /** The page built from its domain, its own path and the matches in its
      body (`Page(domain, url, content)`). */
  function ExtractPage(domain: string, url: string, scan: Scan): (r: Result<Page, UrlError>)
    ensures r.Success? ==> r.value.url == url && WellFormedPage(r.value)
    ensures r.Success? ==>
              r.value.title == (if scan.title.Some? then Trim(scan.title.value, Whitespace) else NoTitle)
    // building raises exactly when `urlsplit` raises on the domain or an href
    ensures r.Success? <==>
              && DomainNetloc(domain).Success?
              && forall i :: 0 <= i < |scan.hrefs| ==> Split(Lower(scan.hrefs[i].href)).Success?
    ensures ('[' !in domain && ']' !in domain
             && forall i :: 0 <= i < |scan.hrefs| ==> '[' !in scan.hrefs[i].href && ']' !in scan.hrefs[i].href)
            ==> r.Success?
  {
    match DomainNetloc(domain)
    case Failure(e) => Failure(e)
    case Success(dn) => BuildPage(dn, url, scan)
  }

  /** The page built once the domain's network location `dn` is known: every
      href classified, then each collection deduplicated. */
  function BuildPage(dn: string, url: string, scan: Scan): (r: Result<Page, UrlError>)
    ensures r.Success? ==> r.value.url == url && WellFormedPage(r.value)
    ensures r.Success? ==>
              r.value.title == (if scan.title.Some? then Trim(scan.title.value, Whitespace) else NoTitle)
    ensures r.Success? <==> forall i :: 0 <= i < |scan.hrefs| ==> Split(Lower(scan.hrefs[i].href)).Success?
    ensures (forall i :: 0 <= i < |scan.hrefs| ==> '[' !in scan.hrefs[i].href && ']' !in scan.hrefs[i].href)
            ==> r.Success?
  {
    MapAllSucceeds(Classifier(dn, url), scan.hrefs);
    match ClassifyAll(dn, url, scan.hrefs)
    case Failure(e) => Failure(e)
    case Success(ts) =>
      ClassifiedShaped(dn, url, scan.hrefs);
      AssembledWellFormed(url, scan, ts);
      Success(Assemble(url, scan, ts))
  }

  /** The page made from the classified hrefs: each collection deduplicated. */
  function Assemble(url: string, scan: Scan, ts: seq<Target>): Page {
    Page(
      url,
      if scan.title.Some? then Trim(scan.title.value, Whitespace) else NoTitle,
      Dedup(SrcAssets(scan.srcs) + Collect(ts, Asset)),
      Dedup(Collect(ts, InternalLink)),
      Dedup(Collect(ts, ExternalLink)))
  }

  /** Every target of a successful classification has its shape. */
  lemma ClassifiedShaped(dn: string, url: string, ms: seq<HrefMatch>)
    requires ClassifyAll(dn, url, ms).Success?
    ensures forall t :: t in ClassifyAll(dn, url, ms).value ==> Shaped(url, t)
  {
    var ts := ClassifyAll(dn, url, ms).value;
    MapAllPointwise(Classifier(dn, url), ms);
    forall t | t in ts
      ensures Shaped(url, t)
    {
      var i :| 0 <= i < |ts| && ts[i] == t;
      assert Classify(dn, url, ms[i]) == Success(t);
    }
  }

  lemma AssembledWellFormed(url: string, scan: Scan, ts: seq<Target>)
    requires forall t :: t in ts ==> Shaped(url, t)
    ensures WellFormedPage(Assemble(url, scan, ts))
  {
    var page := Assemble(url, scan, ts);
    forall x | x in page.internalLinks
      ensures InternalShaped(x) && x != url && NoUpper(x)
    {
      assert Shaped(url, Keep(InternalLink, x));
    }
    forall x | x in page.externalLinks
      ensures ExternalShaped(x) && '?' !in x && '#' !in x && NoUpper(x)
    {
      assert Shaped(url, Keep(ExternalLink, x));
    }
    forall x | x in page.assets
      ensures NoUpper(x)
    {
      var srcs := SrcAssets(scan.srcs);
      if x in srcs {
        var i :| 0 <= i < |srcs| && srcs[i] == x;
      } else {
        assert Shaped(url, Keep(Asset, x));
      }
    }
  }

  /** An extracted page is built from the classification of all its hrefs. */
  lemma ExtractedFrom(dn: string, url: string, scan: Scan, page: Page) returns (ts: seq<Target>)
    requires BuildPage(dn, url, scan) == Success(page)
    ensures ClassifyAll(dn, url, scan.hrefs) == Success(ts)
    ensures page.assets == Dedup(SrcAssets(scan.srcs) + Collect(ts, Asset))
    ensures page.internalLinks == Dedup(Collect(ts, InternalLink))
    ensures page.externalLinks == Dedup(Collect(ts, ExternalLink))
  {
    ts := ClassifyAll(dn, url, scan.hrefs).value;
  }

  lemma CollectMembership(dn: string, url: string, ms: seq<HrefMatch>, ts: seq<Target>, k: Kind, x: string)
    requires ClassifyAll(dn, url, ms) == Success(ts)
    ensures x in Collect(ts, k) <==>
              exists i :: 0 <= i < |ms| && Classify(dn, url, ms[i]) == Success(Keep(k, x))
  {
    MapAllPointwise(Classifier(dn, url), ms);
    if x in Collect(ts, k) {
      var i :| 0 <= i < |ts| && ts[i] == Keep(k, x);
      assert Classify(dn, url, ms[i]) == Success(Keep(k, x));
    }
    if exists i :: 0 <= i < |ms| && Classify(dn, url, ms[i]) == Success(Keep(k, x)) {
      var i :| 0 <= i < |ms| && Classify(dn, url, ms[i]) == Success(Keep(k, x));
      assert ts[i] == Keep(k, x);
    }
  }

  /** The internal links of an extracted page are exactly the hrefs
      classified as internal links. */
  lemma InternalMembership(dn: string, url: string, scan: Scan, page: Page)
    requires BuildPage(dn, url, scan) == Success(page)
    ensures forall x :: x in page.internalLinks <==>
              exists i :: 0 <= i < |scan.hrefs| && Classify(dn, url, scan.hrefs[i]) == Success(Keep(InternalLink, x))
  {
    var ts := ExtractedFrom(dn, url, scan, page);
    forall x
      ensures x in page.internalLinks <==>
                exists i :: 0 <= i < |scan.hrefs| && Classify(dn, url, scan.hrefs[i]) == Success(Keep(InternalLink, x))
    {
      CollectMembership(dn, url, scan.hrefs, ts, InternalLink, x);
    }
  }

  /** The external links of an extracted page are exactly the hrefs
      classified as external links. */
  lemma ExternalMembership(dn: string, url: string, scan: Scan, page: Page)
    requires BuildPage(dn, url, scan) == Success(page)
    ensures forall x :: x in page.externalLinks <==>
              exists i :: 0 <= i < |scan.hrefs| && Classify(dn, url, scan.hrefs[i]) == Success(Keep(ExternalLink, x))
  {
    var ts := ExtractedFrom(dn, url, scan, page);
    forall x
      ensures x in page.externalLinks <==>
                exists i :: 0 <= i < |scan.hrefs| && Classify(dn, url, scan.hrefs[i]) == Success(Keep(ExternalLink, x))
    {
      CollectMembership(dn, url, scan.hrefs, ts, ExternalLink, x);
    }
  }

  /** The assets of an extracted page are exactly the trimmed, lower-cased
      `src` values together with the same-site hrefs of tags other than
      `<a>`. */
  lemma AssetMembership(dn: string, url: string, scan: Scan, page: Page)
    requires BuildPage(dn, url, scan) == Success(page)
    ensures forall x :: x in page.assets <==>
              x in SrcAssets(scan.srcs)
              || (exists i :: 0 <= i < |scan.hrefs| && Classify(dn, url, scan.hrefs[i]) == Success(Keep(Asset, x)))
  {
    var ts := ExtractedFrom(dn, url, scan, page);
    forall x
      ensures x in page.assets <==>
                x in SrcAssets(scan.srcs)
                || (exists i :: 0 <= i < |scan.hrefs| && Classify(dn, url, scan.hrefs[i]) == Success(Keep(Asset, x)))
    {
      CollectMembership(dn, url, scan.hrefs, ts, Asset, x);
    }
  }

  /** A foreign href (a network location that is present and not the
      domain's) is recorded as an external link of the form
      `scheme://netloc/path`, without its query and fragment, and is never an
      internal link. */
  lemma ExternalHrefRecorded(dn: string, url: string, scan: Scan, page: Page, i: nat, p: Parts)
    requires BuildPage(dn, url, scan) == Success(page)
    requires i < |scan.hrefs| && Split(Lower(scan.hrefs[i].href)) == Success(p)
    requires p.Netloc() != "" && p.Netloc() != dn
    ensures Unsplit(p.Scheme(), p.Netloc(), p.path) in page.externalLinks
    ensures Unsplit(p.Scheme(), p.Netloc(), p.path) !in page.internalLinks
    ensures Unsplit(p.Scheme(), p.Netloc(), p.path) == SchemePrefix(OptScheme(p.Scheme())) + "//" + p.Netloc() + p.path
  {
    UnsplitExternal(p);
    ExternalMembership(dn, url, scan, page);
    InternalMembership(dn, url, scan, page);
    var x := Unsplit(p.Scheme(), p.Netloc(), p.path);
    assert Classify(dn, url, scan.hrefs[i]) == Success(Keep(ExternalLink, x));
    ShapesDisjoint(x);
  }

  /** Only `<a>` tags produce internal links. */
  lemma InternalLinksFromAnchors(dn: string, url: string, scan: Scan, page: Page)
    requires BuildPage(dn, url, scan) == Success(page)
    ensures forall x :: x in page.internalLinks ==>
              exists i :: 0 <= i < |scan.hrefs| && Lower(scan.hrefs[i].tag) == "a"
                          && Classify(dn, url, scan.hrefs[i]) == Success(Keep(InternalLink, x))
  {
    InternalMembership(dn, url, scan, page);
  }

  /** A same-site href that is neither ignored nor the page itself becomes
      an internal link when it comes from an `<a>` tag and an asset when it
      comes from any other tag. */
  lemma SameSiteHrefPlacement(dn: string, url: string, scan: Scan, page: Page, i: nat, p: Parts)
    requires BuildPage(dn, url, scan) == Success(page)
    requires i < |scan.hrefs| && Split(Lower(scan.hrefs[i].href)) == Success(p)
    requires p.Netloc() == "" || p.Netloc() == dn
    requires p.Scheme() !in IgnoredSchemes
    requires InternalPath(p.path) != url
    ensures Lower(scan.hrefs[i].tag) == "a" ==> InternalPath(p.path) in page.internalLinks
    ensures Lower(scan.hrefs[i].tag) != "a" ==> InternalPath(p.path) in page.assets
  {
    InternalMembership(dn, url, scan, page);
    AssetMembership(dn, url, scan, page);
    var x := InternalPath(p.path);
    if Lower(scan.hrefs[i].tag) == "a" {
      assert Classify(dn, url, scan.hrefs[i]) == Success(Keep(InternalLink, x));
    } else {
      assert Classify(dn, url, scan.hrefs[i]) == Success(Keep(Asset, x));
    }
  }

  function WithoutHref(scan: Scan, i: nat): Scan
    requires i < |scan.hrefs|
  {
    scan.(hrefs := Without(scan.hrefs, i))
  }

  /** An href that is dropped contributes nothing: the page is the same with
      or without it. */
  lemma DroppedHrefInert(dn: string, url: string, scan: Scan, i: nat)
    requires i < |scan.hrefs|
    requires Classify(dn, url, scan.hrefs[i]).Success? && Classify(dn, url, scan.hrefs[i]).value.Drop?
    ensures BuildPage(dn, url, WithoutHref(scan, i)) == BuildPage(dn, url, scan)
  {
    var scan' := WithoutHref(scan, i);
    MapAllWithout(Classifier(dn, url), scan.hrefs, i);
    var all := ClassifyAll(dn, url, scan.hrefs);
    if all.Success? {
      MapAllPointwise(Classifier(dn, url), scan.hrefs);
      assert all.value[i] == Classify(dn, url, scan.hrefs[i]).value;
      AssembleWithoutDrop(url, scan, scan', all.value, i);
    }
  }

  lemma AssembleWithoutDrop(url: string, scan: Scan, scan': Scan, ts: seq<Target>, i: nat)
    requires scan'.title == scan.title && scan'.srcs == scan.srcs
    requires i < |ts| && ts[i].Drop?
    ensures Assemble(url, scan', Without(ts, i)) == Assemble(url, scan, ts)
  {
    forall k: Kind
      ensures Collect(Without(ts, i), k) == Collect(ts, k)
    {
      CollectWithoutDrop(ts, i, k);
    }
  }

  lemma CollectWithoutDrop(ts: seq<Target>, i: nat, k: Kind)
    requires i < |ts| && ts[i].Drop?
    ensures Collect(Without(ts, i), k) == Collect(ts, k)
  {
    var a, c := ts[..i], ts[i + 1..];
    SplitAround(ts, i);
    CollectConcat([ts[i]], c, k);
    assert Collect([ts[i]], k) == [] by {
      assert [ts[i]][1..] == [];
    }
    CollectConcat(a, [ts[i]] + c, k);
    CollectConcat(a, c, k);
  }

  /** An href whose split scheme is `mailto`, `tel` or `javascript`, and
      whose network location is not foreign, leaves no trace in the page. */
  lemma UnsupportedSchemeIgnored(dn: string, url: string, scan: Scan, i: nat, p: Parts)
    requires i < |scan.hrefs| && Split(Lower(scan.hrefs[i].href)) == Success(p)
    requires p.Netloc() == "" || p.Netloc() == dn
    requires p.Scheme() in IgnoredSchemes
    ensures BuildPage(dn, url, WithoutHref(scan, i)) == BuildPage(dn, url, scan)
  {
    assert Classify(dn, url, scan.hrefs[i]) == Success(Drop(UnsupportedScheme));
    DroppedHrefInert(dn, url, scan, i);
  }

  /** A same-site href that rebuilds to the page's own path leaves no trace
      in the page. */
  lemma SelfLinkIgnored(dn: string, url: string, scan: Scan, i: nat, p: Parts)
    requires i < |scan.hrefs| && Split(Lower(scan.hrefs[i].href)) == Success(p)
    requires p.Netloc() == "" || p.Netloc() == dn
    requires p.Scheme() !in IgnoredSchemes
    requires InternalPath(p.path) == url
    ensures BuildPage(dn, url, WithoutHref(scan, i)) == BuildPage(dn, url, scan)
  {
    assert Classify(dn, url, scan.hrefs[i]) == Success(Drop(SelfLink));
    DroppedHrefInert(dn, url, scan, i);
  }

  /** A fragment-only href such as `#top` has an empty path, which is
      rebuilt as `/`: it is a self-link on the root page and a link (or
      asset) to the root from every other page. */
  lemma FragmentOnlyHref(dn: string, url: string, m: HrefMatch)
    requires |m.href| > 0 && m.href[0] == '#'
    ensures url == "/" ==> Classify(dn, url, m) == Success(Drop(SelfLink))
    ensures url != "/" && Lower(m.tag) == "a" ==> Classify(dn, url, m) == Success(Keep(InternalLink, "/"))
    ensures url != "/" && Lower(m.tag) != "a" ==> Classify(dn, url, m) == Success(Keep(Asset, "/"))
  {
    var s := Lower(m.href);
    assert s[0] == '#';
    FragmentOnlySplit(s);
    var p := Parts(None, None, "", None, Some(s[1..]));
    assert p.Netloc() == "" && p.Scheme() == "";
    EmptySchemeNotIgnored();
    assert InternalPath(p.path) == "/" by {
      assert Trim("", {'/'}) == "";
    }
  }

  lemma EmptySchemeNotIgnored()
    ensures "" !in IgnoredSchemes
  {
    assert |"mailto"| > 0 && |"tel"| > 0 && |"javascript"| > 0;
  }

  lemma FragmentOnlySplit(s: string)
    requires |s| > 0 && s[0] == '#'
    ensures Split(s) == Success(Parts(None, None, "", None, Some(s[1..])))
  {
    NoSchemeBefore(s);
    assert !StartsWithTwoSlashes(s);
    SplitAtFirst(s, '#');
    assert SplitAt("", '?') == ("", None);
  }

  /** Every page's links list has no duplicates and is exactly its internal
      links together with its external links. */
  lemma LinksNoDup(page: Page)
    requires WellFormedPage(page)
    ensures NoDup(page.Links())
    ensures forall x :: x in page.Links() <==> x in page.internalLinks || x in page.externalLinks
  {
    forall x | x in page.internalLinks
      ensures x !in page.externalLinks
    {
      ShapesDisjoint(x);
    }
    NoDupAppend(page.internalLinks, page.externalLinks);
  }
}

=== FILE: registry.dfy ===
/** The sitemap's page registry (`Sitemap.__create_page_for` in models.py):
    a map from a page's path to its page, written at most once per path. */
module Registry {
  import opened Results
  import opened Url
  import opened Pages

  type PageMap = map<string, Page>

  datatype RegistryError =
    | PageExists              // `PageExistsError`: the path is already registered
    | InvalidUrl(e: UrlError) // the `ValueError` raised while building the page

  /** How a page is made from its path and the text of its response: the
      `Page(domain, url, content)` call, for the sitemap's domain. */
  type Builder = (string, string) -> Result<Page, UrlError>

  /** Every page is filed under its own path. */
  predicate Consistent(pages: PageMap) {
    forall u :: u in pages ==> pages[u].url == u
  }

  /** The builder gives every page it makes the path it was asked for. */
  ghost predicate KeepsPath(build: Builder) {
    forall u, c :: build(u, c).Success? ==> build(u, c).value.url == u
  }

  /** Register the page at `url` made from `content`: refused when the path
      is already taken (before any page is built), otherwise the page is
      built, filed under `url` and returned. */
  function CreatePageFor(pages: PageMap, build: Builder, url: string, content: string): (r: Result<(PageMap, Page), RegistryError>)
    ensures (r.Failure? && r.error.PageExists?) <==> url in pages
    ensures r.Failure? && url !in pages ==>
              build(url, content).Failure? && r.error == InvalidUrl(build(url, content).error)
    ensures r.Success? ==> url !in pages && build(url, content) == Success(r.value.1)
    ensures r.Success? ==> r.value.0 == pages[url := r.value.1]
  {
    if url in pages then Failure(PageExists)
    else
      match build(url, content)
      case Failure(e) => Failure(InvalidUrl(e))
      case Success(page) => Success((pages[url := page], page))
  }

  /** A successful registration adds exactly one path and leaves every page
      already registered untouched. */
  lemma CreateAddsOne(pages: PageMap, build: Builder, url: string, content: string)
    requires CreatePageFor(pages, build, url, content).Success?
    ensures var (pages', page) := CreatePageFor(pages, build, url, content).value;
            && pages'.Keys == pages.Keys + {url}
            && url !in pages
            && pages'[url] == page
            && forall u :: u in pages ==> pages'[u] == pages[u]
  {
    var (pages', page) := CreatePageFor(pages, build, url, content).value;
    UpdateAddsOne(pages, url, page);
  }

  lemma UpdateAddsOne<K, V>(m: map<K, V>, k: K, v: V)
    requires k !in m
    ensures m[k := v].Keys == m.Keys + {k}
    ensures m[k := v][k] == v
    ensures forall u :: u in m ==> m[k := v][u] == m[u]
  {
  }

  /** Registration keeps every page filed under its own path. */
  lemma CreateKeepsConsistent(pages: PageMap, build: Builder, url: string, content: string)
    requires Consistent(pages) && KeepsPath(build)
    requires CreatePageFor(pages, build, url, content).Success?
    ensures Consistent(CreatePageFor(pages, build, url, content).value.0)
  {
    var (pages', page) := CreatePageFor(pages, build, url, content).value;
    assert pages' == pages[url := page];
  }

  /** The second registration of a path fails, whatever its content. */
  lemma RegisterTwice(pages: PageMap, build: Builder, url: string, content: string, content': string)
    requires CreatePageFor(pages, build, url, content).Success?
    ensures var pages' := CreatePageFor(pages, build, url, content).value.0;
            CreatePageFor(pages', build, url, content') == Failure(PageExists)
  {
    var (pages', page) := CreatePageFor(pages, build, url, content).value;
    assert url in pages';
  }
}

=== FILE: results.dfy ===
/** Optional values and success/failure outcomes, standing in for Python's
    `None` and for the exceptions the crawler raises. */
module Results {

  datatype Option<T> = None | Some(value: T) {

    /** The wrapped value, or `default` when there is none. */
    function GetOr(default: T): T {
      match this
      case Some(v) => v
      case None => default
    }
  }

  datatype Result<T, E> = Success(value: T) | Failure(error: E)
}

=== FILE: sitemap.dfy ===
/** The sitemap of a website (`Sitemap.__init__` in models.py): the domain
    it is given is cut down to `scheme://netloc`, refused when it names no
    scheme, and crawled from the root path. */
module Sitemaps {
  import opened Results
  import opened Text
  import opened Url
  import opened Pages
  import opened Registry
  import opened Crawler

  datatype Sitemap = Sitemap(domain: string, pages: PageMap)

  datatype SitemapError =
    | InvalidDomain(e: UrlError)   // `urlsplit` of the domain raised `ValueError`
    | MissingScheme                // the `TypeError` for a domain without `http(s)://`
    | CrawlFailed(cause: CrawlError) // an exception that escaped the crawl

  /** The domain the sitemap keeps: the scheme and network location of the
      given text, joined by `://`; refused when the split finds no scheme. */
  function NormaliseDomain(d: string): (r: Result<string, SitemapError>)
    // accepted exactly when `urlsplit` succeeds and finds a scheme
    ensures r.Success? <==> Split(d).Success? && Split(d).value.Scheme() != ""
    ensures Split(d).Failure? ==> r == Failure(InvalidDomain(Split(d).error))
    ensures r.Failure? && r.error.InvalidDomain? ==> '[' in d || ']' in d
    ensures r == Failure(MissingScheme) <==>
              Split(d).Success? && !TakesScheme(d, FirstIndexIn(d, {':'}))
    // the kept domain is the scheme and network location `urlsplit` finds in `d`
    ensures r.Success? ==>
              && Split(d).Success? && Split(d).value.Scheme() != ""
              && r.value == Split(d).value.Scheme() + "://" + Split(d).value.Netloc()
    ensures r.Success? ==>
              exists scheme, netloc ::
                && r.value == scheme + "://" + netloc
                && scheme != "" && AllSchemeChars(scheme) && NoUpper(scheme)
                && '/' !in netloc && '?' !in netloc && '#' !in netloc && !BadBrackets(netloc)
  {
    match Split(d)
    case Failure(e) => Failure(InvalidDomain(e))
    case Success(p) =>
      if p.Scheme() == "" then Failure(MissingScheme)
      else
        NormalisedShape(p);
        Success(p.Scheme() + "://" + p.Netloc())
  }

  lemma NormalisedShape(p: Parts)
    requires WellFormed(p) && p.Scheme() != ""
    ensures AllSchemeChars(p.Scheme()) && NoUpper(p.Scheme())
    ensures '/' !in p.Netloc() && '?' !in p.Netloc() && '#' !in p.Netloc() && !BadBrackets(p.Netloc())
  {
    AllSchemeCharsLower(p.rawScheme.value);
  }

  /** A normalised domain splits into exactly its scheme and network
      location, with an empty path and no query or fragment. */
  lemma SplitNormalised(scheme: string, netloc: string)
    requires scheme != "" && AllSchemeChars(scheme)
    requires '/' !in netloc && '?' !in netloc && '#' !in netloc && !BadBrackets(netloc)
    ensures Split(scheme + "://" + netloc) == Success(Parts(Some(scheme), Some(netloc), "", None, None))
  {
    var s := scheme + "://" + netloc;
    assert OptScheme(scheme) == Some(scheme);
    assert s == SchemePrefix(OptScheme(scheme)) + "//" + netloc + "" by {
      assert SchemePrefix(Some(scheme)) == scheme + ":";
      assert s == (scheme + ":") + "//" + netloc + "";
    }
    SplitJoined(scheme, netloc, "");
  }

  /** Normalising a normalised domain changes nothing. */
  lemma NormaliseIdempotent(d: string)
    requires NormaliseDomain(d).Success?
    ensures NormaliseDomain(NormaliseDomain(d).value) == NormaliseDomain(d)
  {
    var scheme, netloc :| && NormaliseDomain(d).value == scheme + "://" + netloc
                          && scheme != "" && AllSchemeChars(scheme) && NoUpper(scheme)
                          && '/' !in netloc && '?' !in netloc && '#' !in netloc && !BadBrackets(netloc);
    SplitNormalised(scheme, netloc);
    LowerOfNoUpper(scheme);
  }

  /** A domain given with a path keeps only its lower-cased scheme and its
      network location. */
  lemma NormaliseDropsPath(scheme: string, netloc: string, path: string)
    requires scheme != "" && AllSchemeChars(scheme)
    requires '/' !in netloc && '?' !in netloc && '#' !in netloc && !BadBrackets(netloc)
    requires path == [] || path[0] == '/'
    requires '?' !in path && '#' !in path
    ensures NormaliseDomain(scheme + "://" + netloc + path) == Success(Lower(scheme) + "://" + netloc)
  {
    assert OptScheme(scheme) == Some(scheme);
    assert scheme + "://" + netloc + path == SchemePrefix(OptScheme(scheme)) + "//" + netloc + path;
    SplitJoined(scheme, netloc, path);
  }

  /** The network location a page of the sitemap compares its links
      against: that of the normalised domain, stripped of trailing
      whitespace and lower-cased. A normalised domain never makes page
      building fail. */
  lemma DomainNetlocOfNormalised(scheme: string, netloc: string)
    requires scheme != "" && AllSchemeChars(scheme) && NoUpper(scheme)
    requires '/' !in netloc && '?' !in netloc && '#' !in netloc && !BadBrackets(netloc)
    ensures DomainNetloc(scheme + "://" + netloc) == Success(Lower(TrimRight(netloc, Whitespace)))
  {
    var t := TrimRight(netloc, Whitespace);
    var lt := Lower(t);
    TrimNormalised(scheme, netloc);
    LowerNormalised(scheme, t);
    assert Lower(Trim(scheme + "://" + netloc, Whitespace)) == scheme + "://" + lt;
    NetlocSymbols(netloc, t, lt);
    SplitNormalised(scheme, lt);
    assert Split(scheme + "://" + lt).value.Netloc() == lt;
  }

  lemma NetlocSymbols(netloc: string, t: string, lt: string)
    requires t == TrimRight(netloc, Whitespace) && lt == Lower(t)
    requires '/' !in netloc && '?' !in netloc && '#' !in netloc && !BadBrackets(netloc)
    ensures '/' !in lt && '?' !in lt && '#' !in lt && !BadBrackets(lt)
  {
    TrimRightKeeps(netloc, Whitespace, '/');
    TrimRightKeeps(netloc, Whitespace, '?');
    TrimRightKeeps(netloc, Whitespace, '#');
    TrimRightKeeps(netloc, Whitespace, '[');
    TrimRightKeeps(netloc, Whitespace, ']');
    LowerKeepsSymbols(t, '/');
    LowerKeepsSymbols(t, '?');
    LowerKeepsSymbols(t, '#');
    LowerKeepsSymbols(t, '[');
    LowerKeepsSymbols(t, ']');
  }

  lemma TrimNormalised(scheme: string, netloc: string)
    requires scheme != "" && AllSchemeChars(scheme)
    ensures Trim(scheme + "://" + netloc, Whitespace) == scheme + "://" + TrimRight(netloc, Whitespace)
  {
    var a := scheme + "://";
    var d := a + netloc;
    assert a[|a| - 1] == '/';
    assert d[0] == scheme[0] && IsSchemeChar(scheme[0]);
    assert d[0] !in Whitespace;
    assert TrimLeft(d, Whitespace) == d;
    TrimRightConcat(a, netloc, Whitespace);
  }

  lemma LowerNormalised(scheme: string, t: string)
    requires NoUpper(scheme)
    ensures Lower(scheme + "://" + t) == scheme + "://" + Lower(t)
  {
    LowerConcat(scheme + "://", t);
    LowerConcat(scheme, "://");
    LowerOfNoUpper(scheme);
    LowerOfNoUpper("://");
  }

  /** The pages of a sitemap over `domain`: `Page(domain, url, content)`,
      with the matches of `content` found by `scan`. */
  function PageBuilder(domain: string, scan: string -> Scan): Builder {
    (u: string, c: string) => ExtractPage(domain, u, scan(c))
  }

  /** Every page a sitemap builds is filed under the path it was built for. */
  lemma PageBuilderKeepsPath(domain: string, scan: string -> Scan)
    ensures KeepsPath(PageBuilder(domain, scan))
  {
    var build := PageBuilder(domain, scan);
    forall u, c | build(u, c).Success?
      ensures build(u, c).value.url == u
    {
      assert build(u, c) == ExtractPage(domain, u, scan(c));
    }
  }

  /** Building a sitemap: normalise the domain, then crawl it. */
  method BuildSitemap(d: string, site: Site, scan: string -> Scan) returns (r: Result<Sitemap, SitemapError>)
    ensures NormaliseDomain(d).Failure? <==> r.Failure? && !r.error.CrawlFailed?
    ensures NormaliseDomain(d).Failure? ==> r == Failure(NormaliseDomain(d).error)
    ensures r.Success? ==> r.value.domain == NormaliseDomain(d).value
    // every page is the one built from the server's accepted answer, filed
    // under its own path
    ensures r.Success? ==>
              forall u :: u in r.value.pages ==>
                && Accepted(Fetch(site, u))
                && PageAt(PageBuilder(r.value.domain, scan), site, u) == Success(r.value.pages[u])
    ensures r.Success? ==> Consistent(r.value.pages)
    // every internal link of a page is a page or refused by the server
    ensures r.Success? ==>
              forall v, l :: v in r.value.pages && l in r.value.pages[v].internalLinks ==>
                l in r.value.pages || Refused(Fetch(site, l))
    ensures r.Success? ==> (Accepted(Fetch(site, "/")) <==> "/" in r.value.pages)
    ensures r.Success? ==> Fetch(site, "/").Response?
    // nothing unreachable is registered
    ensures r.Success? ==> forall u :: u in r.value.pages ==> Reached(r.value.pages, u)
    // the crawl aborts on a failed request or on a page that cannot be built
    ensures r.Failure? && r.error.CrawlFailed? && r.error.cause.FetchFailed? ==>
              Fetch(site, r.error.cause.url).ConnectionFailed?
    ensures r.Failure? && r.error.CrawlFailed? && r.error.cause.PageFailed? ==>
              && Accepted(Fetch(site, r.error.cause.url))
              && PageAt(PageBuilder(NormaliseDomain(d).value, scan), site, r.error.cause.url).Failure?
    ensures r.Failure? && r.error.CrawlFailed? ==>
              exists pages: PageMap :: Pending(PageBuilder(NormaliseDomain(d).value, scan), site, pages, r.error.cause.url)
  {
    var domain := NormaliseDomain(d);
    if domain.Failure? {
      return Failure(domain.error);
    }
    var build := PageBuilder(domain.value, scan);
    var crawl := Crawl(build, site);
    if crawl.Failure? {
      return Failure(CrawlFailed(crawl.error));
    }
    PageBuilderKeepsPath(domain.value, scan);
    forall u | u in crawl.value
      ensures crawl.value[u].url == u
    {
      assert build(u, Fetch(site, u).body) == Success(crawl.value[u]);
    }
    return Success(Sitemap(domain.value, crawl.value));
  }
}

=== FILE: text.dfy ===
/** String helpers behaving like the ASCII `str` methods of Python 2 that the
    crawler calls: `lower`, `strip`, `find` and the `in` substring test. */
module Text {

  /** The characters `str.strip()` removes when given no argument. */
  const Whitespace: set<char> := {' ', '\t', '\n', '\r', '\U{000B}', '\U{000C}'}

  predicate IsUpper(c: char) {
    'A' <= c <= 'Z'
  }

  /** No character of `s` is an upper-case ASCII letter. */
  predicate NoUpper(s: string) {
    forall c :: c in s ==> !IsUpper(c)
  }

  function LowerChar(c: char): (r: char)
    ensures !IsUpper(r)
    ensures !IsUpper(c) ==> r == c
  {
    if IsUpper(c) then (c as int + 32) as char else c
  }

  /** `s.lower()`: every ASCII capital replaced by its small letter. */
  function Lower(s: string): (r: string)
    ensures |r| == |s|
    ensures forall i :: 0 <= i < |s| ==> r[i] == LowerChar(s[i])
    ensures NoUpper(r)
  {
    var r := seq(|s|, i requires 0 <= i < |s| => LowerChar(s[i]));
    assert forall c :: c in r ==> exists i :: 0 <= i < |r| && r[i] == c;
    r
  }

  /** Lower-casing leaves a string that has no capitals alone, so it is idempotent. */
  lemma LowerOfNoUpper(s: string)
    requires NoUpper(s)
    ensures Lower(s) == s
  {
  }

  lemma LowerConcat(a: string, b: string)
    ensures Lower(a + b) == Lower(a) + Lower(b)
  {
  }

  /** Lower-casing never turns a character into, or away from, one of `cs`
      when `cs` holds no letters. */
  lemma LowerKeepsSymbols(s: string, c: char)
    requires !('A' <= c <= 'Z') && !('a' <= c <= 'z')
    ensures c in Lower(s) <==> c in s
  {
    if c in s {
      var i :| 0 <= i < |s| && s[i] == c;
      assert Lower(s)[i] == c;
    }
    if c in Lower(s) {
      var i :| 0 <= i < |s| && Lower(s)[i] == c;
      assert s[i] == c;
    }
  }

  /** Leading characters of `cs` removed (`s.lstrip(cs)`). */
  function TrimLeft(s: string, cs: set<char>): (r: string)
    ensures |r| <= |s| && r == s[|s| - |r|..]
    ensures forall i :: 0 <= i < |s| - |r| ==> s[i] in cs
    ensures |r| > 0 ==> r[0] !in cs
    decreases |s|
  {
    if |s| > 0 && s[0] in cs then TrimLeft(s[1..], cs) else s
  }

  /** Trailing characters of `cs` removed (`s.rstrip(cs)`). */
  function TrimRight(s: string, cs: set<char>): (r: string)
    ensures |r| <= |s| && r == s[..|r|]
    ensures forall i :: |r| <= i < |s| ==> s[i] in cs
    ensures |r| > 0 ==> r[|r| - 1] !in cs
    decreases |s|
  {
    if |s| > 0 && s[|s| - 1] in cs then TrimRight(s[..|s| - 1], cs) else s
  }

  /** `t` is the slice of `s` starting at `i`, with nothing but characters
      of `cs` before and after it. */
  predicate StripsAt(s: string, cs: set<char>, t: string, i: int) {
    && 0 <= i <= |s| - |t|
    && t == s[i..i + |t|]
    && (forall k :: 0 <= k < i ==> s[k] in cs)
    && (forall k :: i + |t| <= k < |s| ==> s[k] in cs)
  }

  /** `t` is what is left of `s` once every character of `cs` is removed
      from both ends: a slice of `s` that neither starts nor ends in `cs`,
      with nothing but characters of `cs` around it. */
  ghost predicate IsStrip(s: string, cs: set<char>, t: string) {
    && (|t| > 0 ==> t[0] !in cs && t[|t| - 1] !in cs)
    && exists i :: StripsAt(s, cs, t, i)
  }

  /** `s.strip(cs)`: characters of `cs` removed from both ends. */
  function Trim(s: string, cs: set<char>): (r: string)
    ensures IsStrip(s, cs, r)
    ensures |r| <= |s|
    ensures forall c :: c in r ==> c in s
  {
    var l := TrimLeft(s, cs);
    var r := TrimRight(l, cs);
    SliceStrip(s, cs, l, r);
    assert forall c :: c in r ==> c in l;
    r
  }

  /** A right strip of a left strip is a strip. */
  lemma SliceStrip(s: string, cs: set<char>, l: string, r: string)
    requires |l| <= |s| && l == s[|s| - |l|..]
    requires forall k :: 0 <= k < |s| - |l| ==> s[k] in cs
    requires |l| > 0 ==> l[0] !in cs
    requires |r| <= |l| && r == l[..|r|]
    requires forall k :: |r| <= k < |l| ==> l[k] in cs
    requires |r| > 0 ==> r[|r| - 1] !in cs
    ensures IsStrip(s, cs, r)
  {
    var i := |s| - |l|;
    assert r == s[i..i + |r|];
    forall k | i + |r| <= k < |s|
      ensures s[k] in cs
    {
      assert s[k] == l[k - i];
    }
    assert StripsAt(s, cs, r, i);
    if |r| > 0 {
      assert r[0] == l[0];
    }
  }

  /** At most one text is the strip of `s`, so `IsStrip` pins `Trim`'s value. */
  lemma StripUnique(s: string, cs: set<char>, t: string, t': string)
    requires IsStrip(s, cs, t) && IsStrip(s, cs, t')
    ensures t == t'
  {
    var i :| StripsAt(s, cs, t, i);
    var i' :| StripsAt(s, cs, t', i');
    if |t| > 0 {
      assert s[i] == t[0] && s[i + |t| - 1] == t[|t| - 1];
    }
    if |t'| > 0 {
      assert s[i'] == t'[0] && s[i' + |t'| - 1] == t'[|t'| - 1];
    }
  }

  /** Stripping from the right only removes characters of `cs`. */
  lemma TrimRightKeeps(s: string, cs: set<char>, c: char)
    requires c !in cs
    ensures c in TrimRight(s, cs) <==> c in s
  {
    var t := TrimRight(s, cs);
    if c in s {
      var i :| 0 <= i < |s| && s[i] == c;
      assert i < |t|;
      assert t[i] == c;
    }
  }

  /** Stripping from the right only reaches into the last part of a
      concatenation whose first part ends in a kept character. */
  lemma {:induction false} TrimRightConcat(a: string, b: string, cs: set<char>)
    requires |a| > 0 && a[|a| - 1] !in cs
    ensures TrimRight(a + b, cs) == a + TrimRight(b, cs)
    decreases |b|
  {
    if |b| > 0 && b[|b| - 1] in cs {
      assert (a + b)[..|a + b| - 1] == a + b[..|b| - 1];
      TrimRightConcat(a, b[..|b| - 1], cs);
    } else if |b| == 0 {
      assert a + b == a;
    }
  }

  /** Index of the first character of `s` that belongs to `cs`, or `|s|` when
      there is none (`s.find(c)` with `-1` read as `|s|`). */
  function FirstIndexIn(s: string, cs: set<char>): (r: nat)
    ensures r <= |s|
    ensures forall j :: 0 <= j < r ==> s[j] !in cs
    ensures r < |s| ==> s[r] in cs
    decreases |s|
  {
    if |s| == 0 then 0
    else if s[0] in cs then 0
    else 1 + FirstIndexIn(s[1..], cs)
  }

  /** The first match lies just past a prefix free of `cs`. */
  lemma FirstIndexAfter(a: string, b: string, cs: set<char>)
    requires forall j :: 0 <= j < |a| ==> a[j] !in cs
    requires |b| > 0 && b[0] in cs
    ensures FirstIndexIn(a + b, cs) == |a|
  {
    assert (a + b)[|a|] in cs;
  }

  lemma FirstIndexNone(s: string, cs: set<char>)
    requires forall j :: 0 <= j < |s| ==> s[j] !in cs
    ensures FirstIndexIn(s, cs) == |s|
  {
  }

  /** Python's `t in s` for strings: `t` occurs in `s` as a contiguous slice. */
  predicate Contains(s: string, t: string) {
    exists i :: 0 <= i <= |s| - |t| && OccursAt(s, t, i)
  }

  predicate OccursAt(s: string, t: string, i: nat)
    requires i <= |s| - |t|
  {
    s[i..i + |t|] == t
  }
}

=== FILE: unique.dfy ===
/** Duplicate removal. The source turns each list into `tuple(set(list))`, so
    the order of the result is unspecified; this model keeps first-occurrence
    order, and no property here depends on the order. */
module Unique {

  predicate NoDup<T(==)>(s: seq<T>) {
    forall i, j :: 0 <= i < j < |s| ==> s[i] != s[j]
  }

  /** The distinct elements of `s`, each exactly once. */
  function Dedup<T(==,!new)>(s: seq<T>): (r: seq<T>)
    ensures NoDup(r)
    ensures forall x :: x in r <==> x in s
    ensures |r| <= |s|
    decreases |s|
  {
    if |s| == 0 then []
    else
      var r := Dedup(s[..|s| - 1]);
      var x := s[|s| - 1];
      assert forall y :: y in s <==> y in s[..|s| - 1] || y == x;
      if x in r then r else r + [x]
  }

  /** A sequence that already has no duplicates comes back unchanged. */
  lemma {:induction false} DedupOfNoDup<T(!new)>(s: seq<T>)
    requires NoDup(s)
    ensures Dedup(s) == s
    decreases |s|
  {
    if |s| > 0 {
      var init := s[..|s| - 1];
      assert NoDup(init);
      DedupOfNoDup(init);
      assert s[|s| - 1] !in init;
      assert s == init + [s[|s| - 1]];
    }
  }

  /** Concatenating two duplicate-free sequences with no common element
      gives a duplicate-free sequence. */
  lemma NoDupAppend<T>(a: seq<T>, b: seq<T>)
    requires NoDup(a) && NoDup(b)
    requires forall x :: x in a ==> x !in b
    ensures NoDup(a + b)
  {
    var s := a + b;
    forall i, j | 0 <= i < j < |s|
      ensures s[i] != s[j]
    {
      if j < |a| {
        assert s[i] == a[i] && s[j] == a[j];
      } else if i >= |a| {
        assert s[i] == b[i - |a|] && s[j] == b[j - |a|];
      } else {
        assert s[i] == a[i] && s[i] in a;
        assert s[j] == b[j - |a|] && s[j] in b;
      }
    }
  }
}

=== FILE: url.dfy ===
/** The part of Python 2.7's `urlparse` module that the crawler relies on:
    `urlsplit` with fragments allowed, `urlunsplit` with an empty query and
    fragment, and the crawler's own rebuilding of a same-site path. */
module Url {
  import opened Results
  import opened Text

  /** `ValueError("Invalid IPv6 URL")`, the one error `urlsplit` raises on
      the inputs modelled here. */
  datatype UrlError = InvalidIPv6

  predicate IsSchemeChar(c: char) {
    ('a' <= c <= 'z') || ('A' <= c <= 'Z') || ('0' <= c <= '9') || c == '+' || c == '-' || c == '.'
  }

  predicate AllSchemeChars(s: string) {
    forall i :: 0 <= i < |s| ==> IsSchemeChar(s[i])
  }

  predicate AllDigits(s: string) {
    forall i :: 0 <= i < |s| ==> '0' <= s[i] <= '9'
  }

  predicate StartsWithTwoSlashes(s: string) {
    |s| >= 2 && s[0] == '/' && s[1] == '/'
  }

  /** A bracket of an IPv6 literal without its partner. */
  predicate BadBrackets(n: string) {
    ('[' in n && ']' !in n) || (']' in n && '[' !in n)
  }

  /** The pieces `urlsplit` cuts a URL into. A piece the URL does not have is
      `None`, so that `Compose` can put the exact input back together; the
      Python result reports such a piece as the empty string. */
  datatype Parts = Parts(
    rawScheme: Option<string>,
    netloc: Option<string>,
    path: string,
    query: Option<string>,
    fragment: Option<string>)
  {
    /** The `scheme` field of the split result: lower-cased, empty when absent. */
    function Scheme(): string {
      match rawScheme
      case Some(s) => Lower(s)
      case None => ""
    }

    /** The `netloc` field of the split result, empty when absent. */
    function Netloc(): string {
      netloc.GetOr("")
    }
  }

  function SchemePrefix(o: Option<string>): string {
    match o
    case Some(s) => s + ":"
    case None => ""
  }

  function NetlocPrefix(o: Option<string>): string {
    match o
    case Some(n) => "//" + n
    case None => ""
  }

  function Suffix(c: char, o: Option<string>): string {
    match o
    case Some(x) => [c] + x
    case None => ""
  }

  /** The text the parts were cut from. */
  function Compose(p: Parts): string {
    SchemePrefix(p.rawScheme) + NetlocPrefix(p.netloc) + p.path + Suffix('?', p.query) + Suffix('#', p.fragment)
  }

  /** What every successful split satisfies: each piece is free of the
      delimiters that end it. */
  predicate WellFormed(p: Parts) {
    && (p.rawScheme.Some? ==> |p.rawScheme.value| > 0 && AllSchemeChars(p.rawScheme.value))
    && (p.netloc.Some? ==>
          '/' !in p.netloc.value && '?' !in p.netloc.value && '#' !in p.netloc.value
          && !BadBrackets(p.netloc.value))
    && (p.netloc.Some? ==> p.path == [] || p.path[0] == '/')
    && (p.netloc.None? ==> !StartsWithTwoSlashes(p.path))
    && '?' !in p.path && '#' !in p.path
    && (p.query.Some? ==> '#' !in p.query.value)
  }

  /** Whether the text before the first ':' (found at index `i`) is a
      scheme: `http` always is; anything else must consist of scheme
      characters and must not be followed by something that looks like a
      port number (a non-empty run of digits). */
  predicate TakesScheme(s: string, i: nat)
    requires i <= |s|
  {
    0 < i < |s|
    && (s[..i] == "http" || (AllSchemeChars(s[..i]) && (i + 1 == |s| || !AllDigits(s[i + 1..]))))
  }

  function SplitScheme(s: string): (r: (Option<string>, string))
    ensures SchemePrefix(r.0) + r.1 == s
    ensures r.0.Some? <==> TakesScheme(s, FirstIndexIn(s, {':'}))
    ensures r.0.Some? ==> |r.0.value| > 0 && AllSchemeChars(r.0.value)
  {
    var i := FirstIndexIn(s, {':'});
    if TakesScheme(s, i) then
      assert s == s[..i] + ":" + s[i + 1..];
      (Some(s[..i]), s[i + 1..])
    else (None, s)
  }

  function SplitNetloc(rest: string): (r: (Option<string>, string))
    ensures NetlocPrefix(r.0) + r.1 == rest
    ensures r.0.Some? <==> StartsWithTwoSlashes(rest)
    ensures r.0.Some? ==> '/' !in r.0.value && '?' !in r.0.value && '#' !in r.0.value
    ensures r.0.Some? ==> r.1 == [] || r.1[0] in {'/', '?', '#'}
  {
    if StartsWithTwoSlashes(rest) then
      var d := FirstIndexIn(rest[2..], {'/', '?', '#'});
      assert rest == "//" + rest[2..2 + d] + rest[2 + d..];
      (Some(rest[2..2 + d]), rest[2 + d..])
    else (None, rest)
  }

  /** `s.split(c, 1)`, with the missing second half as `None`. */
  function SplitAt(s: string, c: char): (r: (string, Option<string>))
    ensures r.0 + Suffix(c, r.1) == s
    ensures c !in r.0
    ensures r.1.None? ==> r.0 == s
  {
    var k := FirstIndexIn(s, {c});
    var head := s[..k];
    assert c !in head by {
      assert forall j :: 0 <= j < |head| ==> head[j] == s[j];
    }
    if k < |s| then
      assert s == head + ([c] + s[k + 1..]);
      (head, Some(s[k + 1..]))
    else
      assert head == s;
      (s, None)
  }

  /** `urlsplit(s)`: scheme up to the first ':', network location after a
      leading '//' up to the next '/', '?' or '#', then the fragment after
      the first '#' and the query after the first '?' before it. */
  function Split(s: string): (r: Result<Parts, UrlError>)
    ensures r.Success? ==> Compose(r.value) == s && WellFormed(r.value)
    ensures r.Success? ==> (r.value.rawScheme.Some? <==> TakesScheme(s, FirstIndexIn(s, {':'})))
    ensures r.Failure? ==> '[' in s || ']' in s
    // only a network location with an unpaired bracket makes it raise
    ensures r.Failure? <==>
              var n := SplitNetloc(SplitScheme(s).1).0;
              n.Some? && BadBrackets(n.value)
  {
    var sch := SplitScheme(s);
    var net := SplitNetloc(sch.1);
    if net.0.Some? && BadBrackets(net.0.value) then
      BracketsReachInput(s, sch, net);
      Failure(InvalidIPv6)
    else
      var frag := SplitAt(net.1, '#');
      var query := SplitAt(frag.0, '?');
      var p := Parts(sch.0, net.0, query.0, query.1, frag.1);
      ComposeStages(s, sch, net, frag, query);
      PathShape(net, frag, query);
      Success(p)
  }

  lemma BracketsReachInput(s: string, sch: (Option<string>, string), net: (Option<string>, string))
    requires SchemePrefix(sch.0) + sch.1 == s
    requires NetlocPrefix(net.0) + net.1 == sch.1
    requires net.0.Some? && BadBrackets(net.0.value)
    ensures '[' in s || ']' in s
  {
    var n := net.0.value;
    assert s == SchemePrefix(sch.0) + ("//" + (n + net.1));
    assert forall c :: c in n ==> c in s;
  }

  lemma ComposeStages(
    s: string,
    sch: (Option<string>, string),
    net: (Option<string>, string),
    frag: (string, Option<string>),
    query: (string, Option<string>))
    requires SchemePrefix(sch.0) + sch.1 == s
    requires NetlocPrefix(net.0) + net.1 == sch.1
    requires frag.0 + Suffix('#', frag.1) == net.1
    requires query.0 + Suffix('?', query.1) == frag.0
    ensures Compose(Parts(sch.0, net.0, query.0, query.1, frag.1)) == s
  {
    var a, b, c, d, e := SchemePrefix(sch.0), NetlocPrefix(net.0), query.0, Suffix('?', query.1), Suffix('#', frag.1);
    calc {
      a + b + c + d + e;
      a + (b + ((c + d) + e));
      s;
    }
  }

  /** The path piece starts where the network location stopped, so it keeps
      that boundary's shape. */
  lemma PathShape(net: (Option<string>, string), frag: (string, Option<string>), query: (string, Option<string>))
    requires net.0.Some? ==> net.1 == [] || net.1[0] in {'/', '?', '#'}
    requires net.0.None? ==> !StartsWithTwoSlashes(net.1)
    requires frag.0 + Suffix('#', frag.1) == net.1 && '#' !in frag.0
    requires query.0 + Suffix('?', query.1) == frag.0 && '?' !in query.0
    ensures net.0.Some? ==> query.0 == [] || query.0[0] == '/'
    ensures net.0.None? ==> !StartsWithTwoSlashes(query.0)
    ensures '#' !in query.0
  {
    assert forall c :: c in query.0 ==> c in frag.0;
    if |query.0| > 0 {
      assert frag.0[0] == query.0[0];
      assert net.1[0] == query.0[0];
    }
    if |query.0| >= 2 {
      assert frag.0[1] == query.0[1];
      assert net.1[1] == query.0[1];
    }
  }

  /** `urlunsplit((scheme, netloc, path, '', ''))` for a non-empty network
      location, the only way the crawler calls it: `scheme:` when there is a
      scheme, then `//netloc`, then the path with a '/' put in front when it
      lacks one. */
  function Unsplit(scheme: string, netloc: string, path: string): (r: string)
    requires netloc != ""
    ensures var rooted := if path != "" && path[0] != '/' then "/" + path else path;
            r == Compose(Parts(OptScheme(scheme), Some(netloc), rooted, None, None))
  {
    var url := "//" + netloc + (if path != "" && path[0] != '/' then "/" + path else path);
    if scheme != "" then scheme + ":" + url else url
  }

  /** The same-site path the crawler rebuilds from a split path: one leading
      '/', no trailing '/', surrounding slashes collapsed
      (`'/%s' % path.strip('/')`). */
  function InternalPath(path: string): (r: string)
    ensures |r| > 0 && r[0] == '/' && IsStrip(path, {'/'}, r[1..])
    ensures !StartsWithTwoSlashes(r)
    ensures |r| > 1 ==> r[|r| - 1] != '/'
    ensures forall c :: c in r ==> c == '/' || c in path
  {
    var t := Trim(path, {'/'});
    assert ("/" + t)[1..] == t;
    "/" + t
  }

  /** Only one text has the shape `InternalPath` promises, so that shape
      pins its value. */
  lemma InternalPathOf(path: string, r: string)
    requires |r| > 0 && r[0] == '/' && IsStrip(path, {'/'}, r[1..])
    ensures InternalPath(path) == r
  {
    var q := InternalPath(path);
    StripUnique(path, {'/'}, q[1..], r[1..]);
    assert q == [q[0]] + q[1..] && r == [r[0]] + r[1..];
  }

  /** A rebuilt path is already in canonical form: rebuilding it again
      changes nothing. */
  lemma InternalPathCanonical(path: string)
    ensures InternalPath(InternalPath(path)) == InternalPath(path)
  {
    var t := Trim(path, {'/'});
    var r := "/" + t;
    assert TrimLeft(r, {'/'}) == t by {
      assert r[1..] == t;
      if |t| > 0 {
        assert TrimLeft(t, {'/'}) == t;
      }
    }
    if |t| > 0 {
      assert TrimRight(t, {'/'}) == t;
    }
  }

  lemma AllSchemeCharsLower(s: string)
    requires AllSchemeChars(s)
    ensures AllSchemeChars(Lower(s))
  {
  }

  function OptScheme(scheme: string): Option<string> {
    if scheme == "" then None else Some(scheme)
  }

  /** A scheme in front of text that starts with '/' is taken as the scheme;
      text that starts with '/' has none. */
  lemma SchemeOfJoined(scheme: string, rest: string)
    requires AllSchemeChars(scheme)
    requires |rest| > 0 && rest[0] == '/'
    ensures SplitScheme(SchemePrefix(OptScheme(scheme)) + rest) == (OptScheme(scheme), rest)
  {
    var s := SchemePrefix(OptScheme(scheme)) + rest;
    if scheme != "" {
      assert s == scheme + ([':'] + rest);
      FirstIndexAfter(scheme, [':'] + rest, {':'});
      assert s[..|scheme|] == scheme;
      assert s[|scheme| + 1..] == rest;
      assert !AllDigits(rest) by { assert rest[0] == '/'; }
      assert TakesScheme(s, |scheme|);
    } else {
      assert s == rest;
      NoSchemeBefore(s);
    }
  }

  /** Text that does not start with a scheme character has no scheme. */
  lemma NoSchemeBefore(s: string)
    requires |s| > 0 && !IsSchemeChar(s[0])
    ensures SplitScheme(s) == (None, s)
  {
    var i := FirstIndexIn(s, {':'});
    if 0 < i < |s| {
      assert s[..i][0] == s[0];
      assert !AllSchemeChars(s[..i]);
      assert s[..i] != "http";
    }
  }

  /** Splitting at a character that does not occur leaves the text whole. */
  lemma SplitAtAbsent(s: string, c: char)
    requires c !in s
    ensures SplitAt(s, c) == (s, None)
  {
    FirstIndexNone(s, {c});
  }

  /** Splitting at a character that comes first leaves an empty head. */
  lemma SplitAtFirst(s: string, c: char)
    requires |s| > 0 && s[0] == c
    ensures SplitAt(s, c) == ("", Some(s[1..]))
  {
    assert FirstIndexIn(s, {c}) == 0;
  }

  lemma NetlocOfJoined(netloc: string, path: string)
    requires '/' !in netloc && '?' !in netloc && '#' !in netloc
    requires path == [] || path[0] == '/'
    ensures SplitNetloc("//" + netloc + path) == (Some(netloc), path)
  {
    var rest := "//" + netloc + path;
    assert rest[2..] == netloc + path;
    if path == [] {
      assert netloc + path == netloc;
      FirstIndexNone(netloc, {'/', '?', '#'});
    } else {
      FirstIndexAfter(netloc, path, {'/', '?', '#'});
    }
    assert rest[2..2 + |netloc|] == netloc;
    assert rest[2 + |netloc|..] == path;
  }

  /** Splitting a URL assembled from a scheme, a network location and a
      path gives those three back, with no query and no fragment. */
  lemma SplitJoined(scheme: string, netloc: string, path: string)
    requires AllSchemeChars(scheme)
    requires '/' !in netloc && '?' !in netloc && '#' !in netloc && !BadBrackets(netloc)
    requires path == [] || path[0] == '/'
    requires '?' !in path && '#' !in path
    ensures Split(SchemePrefix(OptScheme(scheme)) + "//" + netloc + path)
            == Success(Parts(OptScheme(scheme), Some(netloc), path, None, None))
  {
    var rest := "//" + netloc + path;
    assert SchemePrefix(OptScheme(scheme)) + "//" + netloc + path == SchemePrefix(OptScheme(scheme)) + rest;
    SchemeOfJoined(scheme, rest);
    NetlocOfJoined(netloc, path);
    SplitAtAbsent(path, '#');
    SplitAtAbsent(path, '?');
  }

  /** The external form the crawler records for a foreign link is
      `scheme://netloc/path` (or `//netloc/path` without a scheme), and
      splitting it again gives back the same scheme, network location and
      path with the query and fragment gone. */
  lemma {:induction false} UnsplitExternal(p: Parts)
    requires WellFormed(p) && p.Netloc() != ""
    ensures Unsplit(p.Scheme(), p.Netloc(), p.path)
            == SchemePrefix(OptScheme(p.Scheme())) + "//" + p.Netloc() + p.path
    ensures Split(Unsplit(p.Scheme(), p.Netloc(), p.path))
            == Success(Parts(OptScheme(p.Scheme()), Some(p.Netloc()), p.path, None, None))
  {
    if p.rawScheme.Some? {
      AllSchemeCharsLower(p.rawScheme.value);
    }
    SplitJoined(p.Scheme(), p.Netloc(), p.path);
  }
}
